=== FILE: README.md ===
# goldiprox gateway core in Dafny

goldiprox is a small HTTP gateway. It keeps a table of routes. Each route has
a URL pattern and is one of three kinds:
- a redirect, which sends the client elsewhere;
- a proxy, which forwards the request upstream;
- an internal route, which the gateway answers itself (health check, route
  listing).

The route table is the configured routes plus the gateway's own routes. It
can be refreshed by polling an endpoint. It is kept sorted by a specificity
score, so that narrower patterns are tried first. Target URLs are
templates: `{{ path }}` placeholders are filled from the pattern's match
result by a dotted-path lookup.

This project models that core (main.ts and lib.ts, with the configuration
shapes of config.ts) as pure Dafny functions and proves what they promise.

| file | module | models |
|---|---|---|
| wrappers.dfy | `Wrappers` | `Option`, and `Outcome` (a value, or a throw) |
| lib.dfy | `Lib` | `dot`, `template`, `split`, `String(n)`, the placeholder syntax |
| lib_examples.dfy | `LibExamples` | the documented `dot` and `template` examples |
| http.dfy | `Http` | `URLSearchParams.set`, `Headers.set`/`get` with their checks, URLs, `new Request` |
| config.dfy | `Config` | patterns, routes, endpoint, application config |
| stable_sort.dfy | `StableSort` | a stable sort by an integer key (`toSorted`) |
| scoring.dfy | `Scoring` | `getPatternScore`, `getRouteScore`, `compareRoutes` |
| gateway.dfy | `Gateway` | health check, redirect, proxy request, dispatch, base routes, polling |
| gateway_examples.dfy | `GatewayExamples` | the documented redirect and proxy examples |

Some behaviour comes from the platform and is passed in as a `Gateway.Runtime`:
- URL pattern matching (`URLPattern.exec`);
- URL parsing (`new URL`, `URL.parse`);
- calling a custom internal handler.

The machine's internal host names are a parameter.

As in main.ts:137-159, a marker weighs 1000, the port is not scored, and a
lower score sorts first. Username, password and hash are not scored either.

## Model

| member | source | states |
|---|---|---|
| Lib.DotSingleKey | lib.ts:27-33 | `Lib.Dot` (`dot`) with a one-key path on an object reads that own property, or undefined when it is missing |
| Lib.DotPath | lib.ts:27-33 | `Lib.Dot` (`dot`) of a path `p + q` is `dot` of `q` on what `p` reaches, so a path is walked one key per segment |
| Lib.DotStopsEarly | lib.ts:29-30 | once a prefix of the path reaches undefined, null or a value that is neither an object nor an array, every longer path reads undefined |
| Lib.ArrayLookup | lib.ts:31-32 | on an array, `Lib.Dot` (`dot`) reads the element a decimal index names, undefined past the end, and `length` is the number of elements |
| Lib.ParseIndexOf | lib.ts:31-32 | the decimal text of a number is read back as that index |
| Lib.ParseIndexCanonical | lib.ts:31-32 | only the canonical decimal text of an index names an element, so a key such as `01` names none |
| Lib.ShowEmpty | lib.ts:44 | `Lib.Show` (`?? ''` with string conversion): only undefined, null, the empty string, the empty array and a one-element array of such a value render as nothing; `0` renders as "0" |
| Lib.ShowArrayCons | lib.ts:44 | under `Lib.Show` an array renders as its elements' texts joined by commas |
| Lib.NatToString | lib.ts:44 | a number is written as one or more decimal digits with no leading zero |
| Lib.NatToStringValue | lib.ts:44 | the written digits denote the number itself |
| Lib.JoinSplit | lib.ts:44 | `Lib.Split` (`split('.')`) yields pieces without the separator that join back to the input |
| Lib.SplitJoin | lib.ts:44 | `Lib.Split` undoes joining separator-free pieces, so the path segments are exactly the dot-separated names |
| Lib.LeadSound | lib.ts:43 | a placeholder `Lib.Lead` finds at the start of a string is `{{`, spaces, a path of `[\w.$]` characters, spaces and `}}`, at the positions reported |
| Lib.LeadComplete | lib.ts:43 | every placeholder at the start of a string is found by `Lib.Lead` with exactly its layout, so the regular expression never misses one |
| Lib.TemplateUnchanged | lib.ts:41-46 | `Lib.Template` (`template`) returns a string in which no placeholder starts anywhere unchanged |
| Lib.TemplateWithoutBraces | lib.ts:41-46 | `Lib.Template` returns a string without `{{` unchanged |
| Lib.TemplateKeepsNonHole | lib.ts:41-46 | in `Lib.Template` a character at which no placeholder starts is copied, and the rest is processed on its own |
| Lib.TemplateLiteralPrefix | lib.ts:41-46 | `Lib.Template` copies text without an opening brace through, and processes the rest independently |
| Lib.TemplatePlaceholder | lib.ts:41-46 | in `Lib.Template` a leading placeholder becomes the text of the lookup of its path, and the scan resumes after it so the inserted text is never rescanned |
| Lib.TemplateKeepsOtherBraces | lib.ts:43 | an instance: `{{ a-b }}` stays literally, since `-` is not a path character |
| Lib.TemplateSingle | lib.ts:41-46 | `Lib.Template` of one placeholder between two brace-free texts: the texts are kept and the placeholder becomes its lookup |
| LibExamples.DotValueExample | lib_test.ts:7-16 | `dot({a: 42}, ['a'])` is 42 |
| LibExamples.DotNestedExample | lib_test.ts:17-26 | `dot({a:{b:{c:42}}}, ['a','b','c'])` is 42 |
| LibExamples.DotMissingExample | lib_test.ts:27-33 | `dot({}, ['key'])` is undefined |
| LibExamples.DotMissingNestedExample | lib_test.ts:34-40 | `dot({a:{b:42}}, ['a','c'])` is undefined |
| LibExamples.ArrayExample | lib.ts:31-44 | `['a', 7]` renders as "a,7", its element "1" is 7 and its length is 2 |
| LibExamples.EmptyArrayExample | lib.ts:44 | the empty array renders as the empty string, as `String([])` does |
| LibExamples.TemplatePlainExample | lib_test.ts:45-51 | `template('hello world', ctx)` is 'hello world' |
| LibExamples.TemplateValueExample | lib_test.ts:52-58 | `template('hello {{ name }}', {name: 'geoff'})` is 'hello geoff' |
| LibExamples.TemplateManyExample | lib_test.ts:59-65 | both placeholders are replaced, giving 'hello geoff, you are 42' |
| LibExamples.TemplateNestedExample | lib_test.ts:66-72 | `{{ user.name }}` walks into the nested object, giving 'hello geoff' |
| LibExamples.TemplateMissingExample | lib_test.ts:73-79 | a missing value renders as the empty string, giving 'hello ' |
| Http.SetParam | main.ts:86-88 | after `searchParams.set(name, value)` the name holds exactly that value, and the pairs of every other name are as they were and in their order |
| Http.SetParamAppends | main.ts:86-88 | `Http.SetParam` with no pair of that name appends the pair at the end |
| Http.SetParamInPlace | main.ts:86-88 | `Http.SetParam` puts the pair where the first pair of that name was, after the same pairs as before |
| Http.ApplyParams | main.ts:86-88 | after setting every added parameter, an added name holds its last added value alone, and the pairs of the other names are kept in their order |
| Http.SetHeader | main.ts:106-108 | storing a value already checked and normalised by `Http.SetAll` (the last step of `headers.set`): the name, in any case spelling, then reads that value, and other names are unchanged |
| Http.SetHeaderKeepsLowerKeys | main.ts:106-108 | a header list stores names lower-cased only, and setting a header adds just its lower-cased name |
| Http.ApplyHeaders | main.ts:106-108 | an added header overrides the inbound one, a later spelling of a name overrides an earlier one, and other headers pass through |
| Http.NormalizeValueSpec | main.ts:106-108 | `Http.NormalizeValue`: `headers.set` strips leading and trailing HTTP whitespace from a value; a value without it is kept, so normalising twice is normalising once |
| Http.SetAllSpec | main.ts:105-108 | `Http.SetAll`, the `addHeaders` loop, throws exactly when some name is not a token, or some value holds a character above U+00FF (it is no ByteString) or, normalised, holds NUL, CR or LF; otherwise every entry is stored normalised, the last spelling of a name winning |
| Http.NormalizeMethodIdempotent | main.ts:118-123 | `Http.NormalizeMethod`: a method `new Request` accepts is accepted again and left as it is |
| Http.NonLatinRefused | main.ts:105-108 | a header value holding a character above U+00FF makes `headers.set` throw whatever the name, so the `addHeaders` loop throws |
| Http.TokyoRefused | main.ts:105-108 | `addHeaders` of `x-city: 東京` throws, which `handleRequest` answers with a 500 (main.ts:204-207) |
| StableSort.SortStable | main.ts:76 | the sort keeps, for every key, the order of the elements with that key |
| StableSort.SortIsStableSort | main.ts:76 | any sorted arrangement that keeps every key's order is the sort's result, so the table does not depend on which stable algorithm runs |
| StableSort.SortSorted | main.ts:79 | sorting a table already in order changes nothing |
| StableSort.SortPair | main.ts:157-159 | two routes end up in score order, and in their given order on a tie |
| Scoring.CountMarkersCounts | main.ts:152-155 | the marker count of `getPatternScore` is the number of `*` and `:` characters, at most the length, and zero exactly when there are none |
| Scoring.FewerMarkersFirst | main.ts:152-155 | `PartScore`: for parts shorter than 1000 characters, fewer markers always means an earlier place |
| Scoring.LongerFirst | main.ts:152-155 | `PartScore`: with equally many markers, the longer part comes first |
| Scoring.UnscoredIgnored | main.ts:137-146 | `RouteScore`: port, username, password and hash take no part in a route's score |
| Scoring.SortRoutes | main.ts:157-159 | the table is in ascending `Score` order, a permutation of its input, and routes of equal score keep their order |
| Scoring.ExactBeforeWildcard | main.ts:137-159 | `/exact/path` is tried before `/exact/*` under the same other components, whichever order they were configured in |
| Gateway.GetHealthz | main.ts:33-38 | the health check answers 200 "ok" exactly while running, and 503 "terminating" otherwise |
| Gateway.TargetUrl | main.ts:85-88 | the target fails exactly when the templated URL does not parse; otherwise it is the parsed URL with the added parameters set, the other pairs kept in order |
| Gateway.NoAddsKeepQuery | main.ts:85-88 | with no added parameters the target's query is the parsed one, pair for pair |
| Gateway.RespondRedirect | main.ts:84-91 | a redirect throws exactly when the templated URL does not parse, and otherwise is a 302 to it with the added parameters set and the other pairs kept in order |
| Gateway.StripColon | main.ts:115 | one trailing colon is removed, and a string without one is kept |
| Gateway.StripColonInverse | main.ts:115 | removing the colon of a scheme written with one gives the scheme back |
| Gateway.ForwardedProto | main.ts:113-116 | `X-Forwarded-Proto` is the inbound scheme without its colon, or "http" when the inbound URL does not parse |
| Gateway.ForwardingNamesAreTokens | main.ts:109-116 | the five forwarding header names are tokens, so `headers.set` can refuse only their values |
| Gateway.StoreForwardingSpec | main.ts:109-116 | after the five stores Host and X-Forwarded-Host hold the host, X-Real-IP and X-Forwarded-For the client and X-Forwarded-Proto the scheme, and every other header is unchanged |
| Gateway.SetForwardingSpec | main.ts:109-116 | setting the forwarding headers throws exactly when a value is refused (a character above U+00FF, or NUL, CR or LF once normalised); otherwise each holds its normalised value and every other header is left alone |
| Gateway.NewRequestSpec | main.ts:118-123 | `Http.NewRequest` (`new Request`) refuses exactly a URL with credentials, a method that is not a token or is CONNECT, TRACE or TRACK, and a body on GET or HEAD; otherwise it keeps URL, headers and body, does not follow redirects and upper-cases a standard method |
| Gateway.GetProxyRequest | main.ts:93-124 | the upstream request fails exactly when `Gateway.ProxyFails` holds: the target URL does not parse, an added header or a forwarding value is refused (a name that is not a token, a value with a character above U+00FF, or NUL, CR or LF once normalised), or `new Request` refuses; otherwise it goes to the target URL with the added parameters set and the other pairs kept in order, the inbound method (normalised) and body, and does not follow redirects |
| Gateway.LastHeaderNormalized | main.ts:105-108 | the last added value of a name, as stored, is its normalisation |
| Gateway.ProxyRequestHeaders | main.ts:104-116 | Host and X-Forwarded-Host name the target host, X-Real-IP and X-Forwarded-For the client, X-Forwarded-Proto the inbound scheme; any other header is the route's last addition or the inbound one; added and forwarding values are normalised |
| Gateway.StoreForwardingKeepsLowerKeys | main.ts:109-116 | the five forwarding stores keep every stored header name lower-case |
| Gateway.ProxyRequestLowerKeyed | main.ts:104-123 | the upstream header list stores names lower-cased only, as a Fetch `Headers` does, when the inbound list does |
| Gateway.Proxy | main.ts:127-134 | proxying throws exactly when `Gateway.ProxyFails` holds, so a character above U+00FF in a header value throws too; otherwise it answers by forwarding exactly the request `getProxyRequest` built, which does not follow redirects |
| Gateway.DispatchThrows | main.ts:188-200 | `Dispatch` throws exactly when a redirect's target URL does not parse, building a proxied request fails (`Gateway.ProxyFails`, header values above U+00FF included), or a custom handler throws; the health route always answers with the health check |
| Gateway.HandleRequest | main.ts:182-208 | the first route whose pattern matches answers, `Contain` turns a throw into a 500 (main.ts:204-207), and with no match the answer is 404 |
| Gateway.GetBaseRoutes | main.ts:44-68 | `HealthRoute` comes first, `RoutesRoute` follows only in development, then the configured routes in order |
| Gateway.FetchRoutesOrder | main.ts:70-81 | `FetchRoutes` publishes the base and fetched routes (only the base routes on failure), sorted by score, equal scores in base-then-fetched order |
| Gateway.ReplayLast | main.ts:244-246 | each poll replaces the whole table, so only the last poll counts |
| Gateway.PublishedLastPoll | main.ts:240-249 | `Published`: the live table is decided by the last completed poll, and a failed poll publishes what having no endpoint would |
| Gateway.BaseRoutesInclude | main.ts:44-68 | the health route and every configured route are base routes |
| Gateway.FetchKeepsBase | main.ts:70-81 | whatever a poll brings, the base routes stay in the table |
| Gateway.PublishedKeepsBase | main.ts:240-249 | the base routes, among them the health route and every configured route, are always in the live table |
| GatewayExamples.RedirectSlugExample | main_test.ts:119-137 | `https://example.com/{{ pathname.groups.slug }}` redirects with a 302 to `https://example.com/albatross` |
| GatewayExamples.RedirectParamExample | main_test.ts:138-155 | an added search parameter is in the redirect target with its value alone |
| GatewayExamples.MethodExamples | main.ts:118-123 | `new Request` turns the method "post" into "POST", refuses "TRACE" and keeps "patch" |
| GatewayExamples.ProxyCreatesRequestExample | main_test.ts:175-202 | a POST with body "hello" is forwarded to the route's URL as a POST with that body, not following redirects |
| GatewayExamples.ProxyForwardingExample | main_test.ts:203-243 | the forwarding headers are `example.com`, `127.0.0.1`, `example.com`, `127.0.0.1` and `http` |
| GatewayExamples.ProxyAddsHeaderExample | main_test.ts:244-264 | a header from `addHeaders` reaches the upstream request |

## Left out

- URL pattern matching (`URLPattern.exec`) is foreign code. It is the `exec` field of `Gateway.Runtime`, and the capture result is a `Lib.Value`.
- Config.Pattern: a pattern given as a string is split into its components by the `URLPattern` constructor, which is foreign code. The model holds the components after that step.
- URL parsing and serialisation are foreign code. They are the `parseUrl` field of `Gateway.Runtime`. Parameter values are not percent-encoded.
- `internalHostnames` reads the network interfaces. Its result is the `internalHosts` parameter.
- `fetch` (of the upstream and of the routes endpoint), JSON decoding and route validation are I/O. A poll is a `Gateway.Poll`: the validated routes, or a failure of any of these steps.
- Gateway.Proxy: the upstream response and the rejection of `fetch` are not modelled. `proxy` returns the fetch promise, so a rejection is not caught by `handleRequest` and is left to the server.
- Gateway.SetForwarding checks the three values before setting any header. main.ts sets the headers one at a time and a refused value throws part-way, but the partly built header list is then discarded, so the outcome is the same.
- Http.Request: a body is a string or absent. A body stream that is already read or locked, which also makes `new Request` throw, is not modelled.
- Timers, the start-up `await`, `Deno.serve`, `shutdown` and logging are left out. The poll loop is a sequence of completed polls.
- `getRoutesz` formatting, `dumpRoute` and `prettyRoute` are left out. The route listing is the `Listing` response holding the table.
- Custom internal handlers are foreign functions. They are the `invoke` field of `Gateway.Runtime`, looked up by name.
- Configuration validation and coercion (`env`, `envObj`, `loadJsonConfig`, `tryUrl`) are left out. The `selfUrl` and `meta` fields are not used by the core.
- echo.ts is not part of this model.
- Some functions are exercised by main_test.ts but do not exist in main.ts: `expandUrl`, `getLocation`, `applyRedirects`, a three-argument `redirect` that passes inbound search parameters through, and WebSocket relaying. They are not part of this model.
- Lib.Value: numbers are integers, so floating-point text such as `1.5` is not modelled. Inherited properties other than an array's `length` are not modelled.
- Lib.Show: every integer is written in full decimal digits. JavaScript writes numbers of 10^21 or more in exponent form (`1e+21`), and integers beyond 2^53 are not exact doubles; neither is modelled.
- Scoring.PartScore: a length is counted in characters, whereas JavaScript counts UTF-16 code units. The two agree for patterns without characters outside the Basic Multilingual Plane.
- Http.Lower: header names and methods are case-mapped in ASCII only, as the Fetch standard does.

=== FILE: config.dfy ===
/** The shapes of the gateway's configuration (config.ts): URL patterns,
    the three kinds of route, the endpoint that routes are polled from and
    the application configuration. Validation and coercion of the JSON
    input are not modelled; these are the values after it. */
module Config {
  import opened Wrappers

  /** The component strings of a `URLPattern`. A component that the
      configuration leaves out is the wildcard `"*"`. An object pattern
      sets only protocol, hostname, port, pathname and search; a string
      pattern may constrain username, password and hash too. Matching
      compares every component, but the score reads only four of them. */
  datatype Pattern = Pattern(protocol: string, username: string, password: string,
                             hostname: string, port: string, pathname: string,
                             search: string, hash: string)

  /** A pattern that only constrains the hostname and the pathname, as the
      gateway's own internal routes do. */
  function HostPathPattern(hostname: string, pathname: string): Pattern
  {
    Pattern("*", "*", "*", hostname, "*", pathname, "*", "*")
  }

  /** The function of an internal route. The two handlers the gateway
      installs itself are named; any other handler is foreign code,
      identified by name. */
  datatype Handler = Healthz | Routesz | Custom(name: string)

  /** `RedirectRoute | ProxyRoute | InternalRoute`. Records of added search
      parameters and headers are kept as their `Object.entries` lists. */
  datatype Route =
    | RedirectRoute(pattern: Pattern, url: string, addSearchParams: seq<(string, string)>)
    | ProxyRoute(pattern: Pattern, url: string, addHeaders: seq<(string, string)>,
                 addSearchParams: seq<(string, string)>)
    | InternalRoute(pattern: Pattern, fn: Handler)

  /** Where to poll for more routes, and how often (milliseconds). */
  datatype EndpointSource = EndpointSource(url: string, interval: int)

  /** The parts of `AppConfig` the core reads. `env` comes from `DENO_ENV`
      (by default `"production"`); only `"development"` changes anything. */
  datatype AppConfig = AppConfig(env: string, routes: seq<Route>, endpoint: Option<EndpointSource>)

  const DevelopmentEnv := "development"
}

=== FILE: gateway.dfy ===
/** The request path of the gateway (main.ts): the health check, building
    a redirect or a proxied request from a matched route, trying the route
    table in order, the routes the gateway installs itself, and the route
    table that start-up and polling publish.

    Foreign operations are passed in through a `Runtime`: matching a
    `URLPattern` against a URL, parsing a URL (`new URL`, `URL.parse`) and
    calling a custom internal handler. */
module Gateway {
  import opened Wrappers
  import opened Lib
  import opened Http
  import opened Config
  import opened StableSort
  import opened Scoring

  /** A response, as far as the gateway decides it. */
  datatype Response =
    | Plain(status: int, text: string)
      /** `Response.redirect(location)`. */
    | Redirection(status: int, location: Url)
      /** The response of `fetch(request)`, which the gateway returns as is. */
    | Forwarded(request: OutboundRequest)
      /** `getRoutesz`: a JSON listing of the route table. */
    | Listing(routes: seq<Route>)

  /** Behaviour supplied by the platform. `exec` is `URLPattern.exec`: the
      match result as a value, or `None` for `null`. `parseUrl` is the URL
      parser: `None` where `new URL` throws and `URL.parse` gives `null`.
      `invoke` runs a custom internal handler. */
  datatype Runtime = Runtime(exec: (Pattern, string) -> Option<Value>,
                             parseUrl: string -> Option<Url>,
                             invoke: (string, Request) -> Outcome<Response>)

  /** The mutable application context: the server state and the live route
      table. */
  datatype App = App(state: string, routes: seq<Route>)

  const Running := "running"
  const NotFound := Plain(404, "Not found")
  const InternalError := Plain(500, "Internal server error")

  // ---------------------------------------------------------------------
  // Health check
  // ---------------------------------------------------------------------

  /** `getHealthz`: healthy exactly while the server is running; any other
      state reports that it is terminating. */
  function GetHealthz(state: string): (r: Response)
    ensures r.Plain?
    ensures r.status == 200 <==> state == Running
    ensures r.status == 200 ==> r.text == "ok"
    ensures r.status != 200 ==> r == Plain(503, "terminating")
  {
    if state == Running then Plain(200, "ok") else Plain(503, "terminating")
  }

  // ---------------------------------------------------------------------
  // Target URLs, redirects and proxied requests
  // ---------------------------------------------------------------------

  /** The query a URL has after `searchParams.set` for every added pair:
      an added name holds its last added value alone, and the pairs of
      the other names are kept, in their order. */
  ghost predicate AddsParams(parsed: Query, adds: seq<(string, string)>, q: Query)
  {
    && (forall n :: Values(q, n) == (match LastParam(adds, n)
                                     case Some(v) => [v]
                                     case None => Values(parsed, n)))
    && (forall names :: (forall i :: 0 <= i < |adds| ==> adds[i].0 in names)
                        ==> Keep(q, names) == Keep(parsed, names))
  }

  /** With nothing to add, the query is the parsed one, pair for pair. */
  lemma NoAddsKeepQuery(parsed: Query, q: Query)
    requires AddsParams(parsed, [], q)
    ensures q == parsed
  {
    KeepNothing(q);
    KeepNothing(parsed);
    assert Keep(q, {}) == Keep(parsed, {});
  }

  /** `new URL(template(url, groups))` followed by `searchParams.set` for
      every entry of `adds`. `None` is the throw of the URL constructor. */
  function TargetUrl(rt: Runtime, url: string, groups: Value, adds: seq<(string, string)>): (r: Option<Url>)
    ensures r.None? <==> rt.parseUrl(Template(url, groups)).None?
    ensures r.Some? ==>
      var u := rt.parseUrl(Template(url, groups)).value;
      r.value == u.(query := r.value.query) && AddsParams(u.query, adds, r.value.query)
  {
    match rt.parseUrl(Template(url, groups))
    case None => None
    case Some(u) => Some(u.(query := ApplyParams(u.query, adds)))
  }

  /** `redirect`: a 302 to the route's target URL. Throws when the
      templated URL does not parse. */
  function RespondRedirect(rt: Runtime, route: Route, groups: Value): (r: Outcome<Response>)
    requires route.RedirectRoute?
    ensures r.Threw? <==> rt.parseUrl(Template(route.url, groups)).None?
    ensures r.Returned? ==>
      var u := rt.parseUrl(Template(route.url, groups)).value;
      && r.value.Redirection?
      && r.value.status == 302
      && r.value.location == u.(query := r.value.location.query)
      && AddsParams(u.query, route.addSearchParams, r.value.location.query)
  {
    match TargetUrl(rt, route.url, groups, route.addSearchParams)
    case None => Threw
    case Some(u) => Returned(Redirection(302, u))
  }

  /** `protocol.replace(/:$/, '')`: drops one trailing colon, if any. */
  function StripColon(p: string): (r: string)
    ensures |p| > 0 && p[|p| - 1] == ':' ==> r + ":" == p
    ensures !(|p| > 0 && p[|p| - 1] == ':') ==> r == p
  {
    if |p| > 0 && p[|p| - 1] == ':' then p[..|p| - 1] else p
  }

  lemma StripColonInverse(s: string)
    ensures StripColon(s + ":") == s
  {
    assert (s + ":")[..|s|] == s;
  }

  /** The value of `X-Forwarded-Proto`: the inbound URL's scheme, or
      `"http"` when the inbound URL does not parse. */
  function ForwardedProto(rt: Runtime, inbound: string): (r: string)
    ensures rt.parseUrl(inbound).None? ==> r == "http"
    ensures rt.parseUrl(inbound).Some? && |rt.parseUrl(inbound).value.protocol| > 0
            && rt.parseUrl(inbound).value.protocol[|rt.parseUrl(inbound).value.protocol| - 1] == ':'
            ==> r + ":" == rt.parseUrl(inbound).value.protocol
  {
    match rt.parseUrl(inbound)
    case None => "http"
    case Some(u) => StripColon(u.protocol)
  }

  /** The forwarding headers `getProxyRequest` sets last, in the spelling
      it uses; header names are matched without regard to case. */
  const HostHeader := "Host"
  const RealIpHeader := "X-Real-IP"
  const ForwardedHostHeader := "X-Forwarded-Host"
  const ForwardedForHeader := "X-Forwarded-For"
  const ForwardedProtoHeader := "X-Forwarded-Proto"

  ghost predicate IsForwardingHeader(name: string)
  {
    || Lower(name) == Lower(HostHeader)
    || Lower(name) == Lower(RealIpHeader)
    || Lower(name) == Lower(ForwardedHostHeader)
    || Lower(name) == Lower(ForwardedForHeader)
    || Lower(name) == Lower(ForwardedProtoHeader)
  }

  /** The forwarding values `headers.set` accepts. The names are fixed
      tokens (`ForwardingNamesAreTokens`), so only a value can be refused. */
  predicate ForwardingValid(host: string, remoteHost: string, proto: string)
  {
    && IsByteString(host) && IsByteString(remoteHost) && IsByteString(proto)
    && IsHeaderValue(NormalizeValue(host))
    && IsHeaderValue(NormalizeValue(remoteHost))
    && IsHeaderValue(NormalizeValue(proto))
  }

  lemma ForwardingNamesAreTokens()
    ensures IsToken(HostHeader) && IsToken(RealIpHeader) && IsToken(ForwardedHostHeader)
    ensures IsToken(ForwardedForHeader) && IsToken(ForwardedProtoHeader)
  {
  }

  /** The five names lower-case to strings of different lengths, so no two
      of them name the same header. */
  lemma ForwardingNamesDistinct()
    ensures |Lower(HostHeader)| == 4 && |Lower(RealIpHeader)| == 9
    ensures |Lower(ForwardedHostHeader)| == 16 && |Lower(ForwardedForHeader)| == 15
    ensures |Lower(ForwardedProtoHeader)| == 17
    ensures Lower(HostHeader) != Lower(RealIpHeader) && Lower(HostHeader) != Lower(ForwardedHostHeader)
    ensures Lower(HostHeader) != Lower(ForwardedForHeader) && Lower(HostHeader) != Lower(ForwardedProtoHeader)
    ensures Lower(RealIpHeader) != Lower(ForwardedHostHeader) && Lower(RealIpHeader) != Lower(ForwardedForHeader)
    ensures Lower(RealIpHeader) != Lower(ForwardedProtoHeader)
    ensures Lower(ForwardedHostHeader) != Lower(ForwardedForHeader)
    ensures Lower(ForwardedHostHeader) != Lower(ForwardedProtoHeader)
    ensures Lower(ForwardedForHeader) != Lower(ForwardedProtoHeader)
  {
  }

  /** `headers.set` of the forwarding headers, in the order main.ts sets
      them. A refused value throws; the headers set before it are then
      discarded with the request, so which one throws makes no
      difference. */
  function SetForwarding(h: Headers, host: string, remoteHost: string, proto: string)
    : Outcome<Headers>
  {
    if !ForwardingValid(host, remoteHost, proto) then Threw
    else Returned(StoreForwarding(h, NormalizeValue(host), NormalizeValue(remoteHost), NormalizeValue(proto)))
  }

  /** The five stores `SetForwarding` makes once every value is accepted. */
  function StoreForwarding(h: Headers, host: string, remoteHost: string, proto: string): Headers
  {
    var h1 := SetHeader(h, HostHeader, host);
    var h2 := SetHeader(h1, RealIpHeader, remoteHost);
    var h3 := SetHeader(h2, ForwardedHostHeader, host);
    var h4 := SetHeader(h3, ForwardedForHeader, remoteHost);
    SetHeader(h4, ForwardedProtoHeader, proto)
  }

  /** After the stores each forwarding header holds its value, whatever the
      order, and every other header is left alone. */
  lemma StoreForwardingSpec(h: Headers, host: string, remoteHost: string, proto: string)
    ensures var r := StoreForwarding(h, host, remoteHost, proto);
      && GetHeader(r, HostHeader) == Some(host)
      && GetHeader(r, ForwardedHostHeader) == Some(host)
      && GetHeader(r, RealIpHeader) == Some(remoteHost)
      && GetHeader(r, ForwardedForHeader) == Some(remoteHost)
      && GetHeader(r, ForwardedProtoHeader) == Some(proto)
      && forall n :: !IsForwardingHeader(n) ==> GetHeader(r, n) == GetHeader(h, n)
  {
    ForwardingNamesDistinct();
  }

  /** Setting the forwarding headers throws exactly when a value is
      refused; otherwise each forwarding header holds its normalised value,
      and every other header is left alone. */
  lemma SetForwardingSpec(h: Headers, host: string, remoteHost: string, proto: string)
    ensures SetForwarding(h, host, remoteHost, proto).Threw? <==> !ForwardingValid(host, remoteHost, proto)
    ensures SetForwarding(h, host, remoteHost, proto).Returned? ==>
      var r := SetForwarding(h, host, remoteHost, proto).value;
      && GetHeader(r, HostHeader) == Some(NormalizeValue(host))
      && GetHeader(r, ForwardedHostHeader) == Some(NormalizeValue(host))
      && GetHeader(r, RealIpHeader) == Some(NormalizeValue(remoteHost))
      && GetHeader(r, ForwardedForHeader) == Some(NormalizeValue(remoteHost))
      && GetHeader(r, ForwardedProtoHeader) == Some(NormalizeValue(proto))
      && forall n :: !IsForwardingHeader(n) ==> GetHeader(r, n) == GetHeader(h, n)
  {
    StoreForwardingSpec(h, NormalizeValue(host), NormalizeValue(remoteHost), NormalizeValue(proto));
  }

  /** What makes `new Request` refuse the outbound request: credentials in
      the URL, a method that is not a token or is CONNECT, TRACE or TRACK,
      or a body on a GET or HEAD, whatever the case of the method. */
  predicate RequestRefused(url: Url, verb: string, body: Option<string>)
  {
    || url.username != "" || url.password != ""
    || !IsToken(verb) || IsForbiddenMethod(verb)
    || (body.Some? && (Upper(verb) == "GET" || Upper(verb) == "HEAD"))
  }

  /** `new Request` refuses exactly the requests `RequestRefused` names;
      otherwise it keeps the URL, headers and body, does not follow
      redirects, and spells a standard method in upper case. */
  lemma NewRequestSpec(url: Url, verb: string, headers: Headers, body: Option<string>)
    ensures NewRequest(url, verb, headers, body).Threw? <==> RequestRefused(url, verb, body)
    ensures NewRequest(url, verb, headers, body).Returned? ==>
      var out := NewRequest(url, verb, headers, body).value;
      && out.url == url && out.headers == headers && out.body == body && out.redirect == Manual
      && Upper(out.verb) == Upper(verb)
      && (IsNormalizedMethod(verb) ==> out.verb == Upper(verb))
      && (!IsNormalizedMethod(verb) ==> out.verb == verb)
  {
    UpperIdempotent(verb);
  }

  /** Everything that makes `getProxyRequest` throw: a target URL that does
      not parse, an added header `headers.set` refuses, a forwarding value
      it refuses, or a request `new Request` refuses. */
  predicate ProxyFails(rt: Runtime, route: Route, groups: Value, request: Request, remoteHost: string)
    requires route.ProxyRoute?
  {
    match rt.parseUrl(Template(route.url, groups))
    case None => true
    case Some(u) =>
      || !ValidEntries(route.addHeaders)
      || !ForwardingValid(u.hostname, remoteHost, ForwardedProto(rt, request.url))
      || RequestRefused(u, request.verb, request.body)
  }

  /** `getProxyRequest`: the request sent upstream. It goes to the route's
      target URL with the inbound method (upper-cased when standard) and
      body and does not follow redirects. It throws exactly when
      `ProxyFails`. */
  function GetProxyRequest(rt: Runtime, route: Route, groups: Value, request: Request,
                           remoteHost: string): (r: Outcome<OutboundRequest>)
    requires route.ProxyRoute?
    ensures r.Threw? <==> ProxyFails(rt, route, groups, request, remoteHost)
    ensures r.Returned? ==>
      var u := rt.parseUrl(Template(route.url, groups)).value;
      && r.value.url == u.(query := r.value.url.query)
      && AddsParams(u.query, route.addSearchParams, r.value.url.query)
      && Upper(r.value.verb) == Upper(request.verb)
      && (IsNormalizedMethod(request.verb) ==> r.value.verb == Upper(request.verb))
      && (!IsNormalizedMethod(request.verb) ==> r.value.verb == request.verb)
      && r.value.body == request.body
      && r.value.redirect == Manual
  {
    match TargetUrl(rt, route.url, groups, route.addSearchParams)
    case None => Threw
    case Some(u) =>
      // A copy of the inbound headers, then the route's `addHeaders`, then
      // the forwarding headers, each through the checks of `headers.set`.
      var proto := ForwardedProto(rt, request.url);
      SetAllSpec(request.headers, route.addHeaders);
      match SetAll(request.headers, route.addHeaders)
      case Threw => Threw
      case Returned(h) =>
        SetForwardingSpec(h, u.hostname, remoteHost, proto);
        match SetForwarding(h, u.hostname, remoteHost, proto)
        case Threw => Threw
        case Returned(headers) =>
          NewRequestSpec(u, request.verb, headers, request.body);
          NewRequest(u, request.verb, headers, request.body)
  }

  /** The value the last entry of `entries` named `name` has after
      normalisation. */
  lemma LastHeaderNormalized(entries: seq<(string, string)>, name: string)
    ensures LastHeader(NormalizeEntries(entries), name)
            == (match LastHeader(entries, name)
                case Some(v) => Some(NormalizeValue(v))
                case None => None)
  {
    if |entries| > 0 {
      NormalizeEntriesCons(entries);
      LastHeaderNormalized(entries[1..], name);
    }
  }

  /** The headers of the request `getProxyRequest` builds: `Host` and
      `X-Forwarded-Host` name the target host, `X-Real-IP` and
      `X-Forwarded-For` the client, `X-Forwarded-Proto` the inbound scheme;
      any other header is the route's last addition of that name, or else
      the inbound header. Added and forwarding values are normalised. */
  lemma ProxyRequestHeaders(rt: Runtime, route: Route, groups: Value, request: Request,
                            remoteHost: string)
    requires route.ProxyRoute?
    requires GetProxyRequest(rt, route, groups, request, remoteHost).Returned?
    ensures
      var out := GetProxyRequest(rt, route, groups, request, remoteHost).value;
      && GetHeader(out.headers, HostHeader) == Some(NormalizeValue(out.url.hostname))
      && GetHeader(out.headers, ForwardedHostHeader) == Some(NormalizeValue(out.url.hostname))
      && GetHeader(out.headers, RealIpHeader) == Some(NormalizeValue(remoteHost))
      && GetHeader(out.headers, ForwardedForHeader) == Some(NormalizeValue(remoteHost))
      && GetHeader(out.headers, ForwardedProtoHeader)
         == Some(NormalizeValue(ForwardedProto(rt, request.url)))
      && (forall n :: !IsForwardingHeader(n) ==>
            GetHeader(out.headers, n) == (match LastHeader(route.addHeaders, n)
                                          case Some(v) => Some(NormalizeValue(v))
                                          case None => GetHeader(request.headers, n)))
  {
    var u := TargetUrl(rt, route.url, groups, route.addSearchParams).value;
    var proto := ForwardedProto(rt, request.url);
    SetAllSpec(request.headers, route.addHeaders);
    var h := SetAll(request.headers, route.addHeaders).value;
    SetForwardingSpec(h, u.hostname, remoteHost, proto);
    forall n | !IsForwardingHeader(n)
      ensures GetHeader(h, n) == (match LastHeader(route.addHeaders, n)
                                  case Some(v) => Some(NormalizeValue(v))
                                  case None => GetHeader(request.headers, n))
    {
      LastHeaderNormalized(route.addHeaders, n);
    }
  }

  /** The five forwarding stores keep every stored name lower-case. */
  lemma StoreForwardingKeepsLowerKeys(h: Headers, host: string, remoteHost: string, proto: string)
    requires LowerKeyed(h)
    ensures LowerKeyed(StoreForwarding(h, host, remoteHost, proto))
  {
    var h1 := SetHeader(h, HostHeader, host);
    SetHeaderKeepsLowerKeys(h, HostHeader, host);
    var h2 := SetHeader(h1, RealIpHeader, remoteHost);
    SetHeaderKeepsLowerKeys(h1, RealIpHeader, remoteHost);
    var h3 := SetHeader(h2, ForwardedHostHeader, host);
    SetHeaderKeepsLowerKeys(h2, ForwardedHostHeader, host);
    var h4 := SetHeader(h3, ForwardedForHeader, remoteHost);
    SetHeaderKeepsLowerKeys(h3, ForwardedForHeader, remoteHost);
    SetHeaderKeepsLowerKeys(h4, ForwardedProtoHeader, proto);
  }

  /** The outbound header list stores names lower-cased only, as a Fetch
      `Headers` does, when the inbound one does. */
  lemma ProxyRequestLowerKeyed(rt: Runtime, route: Route, groups: Value, request: Request,
                               remoteHost: string)
    requires route.ProxyRoute?
    requires GetProxyRequest(rt, route, groups, request, remoteHost).Returned?
    ensures LowerKeyed(request.headers) ==>
              LowerKeyed(GetProxyRequest(rt, route, groups, request, remoteHost).value.headers)
  {
    if LowerKeyed(request.headers) {
      var u := TargetUrl(rt, route.url, groups, route.addSearchParams).value;
      var proto := ForwardedProto(rt, request.url);
      SetAllKeepsLowerKeys(request.headers, route.addHeaders);
      var h := SetAll(request.headers, route.addHeaders).value;
      StoreForwardingKeepsLowerKeys(h, NormalizeValue(u.hostname), NormalizeValue(remoteHost),
                                    NormalizeValue(proto));
      var h2 := SetForwarding(h, u.hostname, remoteHost, proto).value;
      NewRequestSpec(u, request.verb, h2, request.body);
    }
  }

  /** `proxy`: hands the outbound request to `fetch`, whose response is
      the answer. Only the synchronous throw of building the request is an
      outcome here. */
  function Proxy(rt: Runtime, route: Route, groups: Value, request: Request,
                 remoteHost: string): (r: Outcome<Response>)
    requires route.ProxyRoute?
    ensures r.Threw? <==> ProxyFails(rt, route, groups, request, remoteHost)
    ensures r.Returned? ==> r.value.Forwarded? && r.value.request.redirect == Manual
    ensures r.Returned? ==> GetProxyRequest(rt, route, groups, request, remoteHost).Returned?
                            && r.value == Forwarded(GetProxyRequest(rt, route, groups, request, remoteHost).value)
  {
    match GetProxyRequest(rt, route, groups, request, remoteHost)
    case Threw => Threw
    case Returned(out) => Returned(Forwarded(out))
  }

  // ---------------------------------------------------------------------
  // Dispatch
  // ---------------------------------------------------------------------

  /** What the loop of `handleRequest` does with the first matching route. */
  function Dispatch(rt: Runtime, app: App, route: Route, groups: Value, request: Request,
                    remoteHost: string): Outcome<Response>
  {
    match route
    case RedirectRoute(_, _, _) => RespondRedirect(rt, route, groups)
    case ProxyRoute(_, _, _, _) => Proxy(rt, route, groups, request, remoteHost)
    case InternalRoute(_, fn) =>
      match fn
      case Healthz => Returned(GetHealthz(app.state))
      case Routesz => Returned(Listing(app.routes))
      case Custom(name) => rt.invoke(name, request)
  }

  /** Answering a matched route throws exactly when a redirect's templated
      target URL does not parse, when building a proxied request fails, or
      when a custom handler throws; the gateway's own handlers always
      answer. */
  lemma DispatchThrows(rt: Runtime, app: App, route: Route, groups: Value, request: Request,
                       remoteHost: string)
    ensures Dispatch(rt, app, route, groups, request, remoteHost).Threw?
            <==> if route.InternalRoute? then route.fn.Custom? && rt.invoke(route.fn.name, request).Threw?
                 else if route.RedirectRoute? then rt.parseUrl(Template(route.url, groups)).None?
                 else ProxyFails(rt, route, groups, request, remoteHost)
    ensures route.InternalRoute? && route.fn == Healthz ==>
              Dispatch(rt, app, route, groups, request, remoteHost) == Returned(GetHealthz(app.state))
  {
  }

  /** The `catch` of `handleRequest`: a throw becomes a 500. */
  function Contain(o: Outcome<Response>): Response
  {
    match o
    case Returned(v) => v
    case Threw => InternalError
  }

  /** `handleRequest`: the first route of the table whose pattern matches
      the request URL answers it; with no match the answer is 404, and a
      throw while answering is a 500. */
  method HandleRequest(rt: Runtime, app: App, request: Request, remoteHost: string)
    returns (r: Response)
    ensures (forall i :: 0 <= i < |app.routes| ==> rt.exec(app.routes[i].pattern, request.url).None?)
            ==> r == NotFound
    ensures forall j :: 0 <= j < |app.routes|
                        && rt.exec(app.routes[j].pattern, request.url).Some?
                        && (forall i :: 0 <= i < j ==> rt.exec(app.routes[i].pattern, request.url).None?)
                        ==> r == Contain(Dispatch(rt, app, app.routes[j],
                                                  rt.exec(app.routes[j].pattern, request.url).value,
                                                  request, remoteHost))
  {
    var i := 0;
    while i < |app.routes|
      invariant 0 <= i <= |app.routes|
      invariant forall k :: 0 <= k < i ==> rt.exec(app.routes[k].pattern, request.url).None?
    {
      var m := rt.exec(app.routes[i].pattern, request.url);
      if m.Some? {
        r := Contain(Dispatch(rt, app, app.routes[i], m.value, request, remoteHost));
        assert forall j :: 0 <= j < |app.routes|
                           && rt.exec(app.routes[j].pattern, request.url).Some?
                           && (forall k :: 0 <= k < j ==> rt.exec(app.routes[k].pattern, request.url).None?)
                           ==> j == i;
        return;
      }
      i := i + 1;
    }
    return NotFound;
  }

  // ---------------------------------------------------------------------
  // The route table
  // ---------------------------------------------------------------------

  /** The health route: the internal host names, path `/healthz` with an
      optional trailing slash. */
  function HealthRoute(internalHosts: string): Route
  {
    InternalRoute(HostPathPattern(internalHosts, "/healthz{/}?"), Healthz)
  }

  /** The route listing, installed in development only. */
  function RoutesRoute(internalHosts: string): Route
  {
    InternalRoute(HostPathPattern(internalHosts, "/routesz{/}?"), Routesz)
  }

  /** `getBaseRoutes`: the health route, then the route listing in
      development, then the configured routes in their order.
      `internalHosts` is the hostname pattern `internalHostnames()` builds
      from the machine's interfaces. */
  function GetBaseRoutes(config: AppConfig, internalHosts: string): (r: seq<Route>)
    ensures |r| >= 1 && r[0] == HealthRoute(internalHosts)
    ensures config.env == DevelopmentEnv <==> |r| == |config.routes| + 2
    ensures config.env != DevelopmentEnv <==> |r| == |config.routes| + 1
    ensures config.env == DevelopmentEnv ==> r[1] == RoutesRoute(internalHosts)
    ensures |r| >= |config.routes| && r[|r| - |config.routes|..] == config.routes
  {
    var extras := if config.env == DevelopmentEnv then [RoutesRoute(internalHosts)] else [];
    [HealthRoute(internalHosts)] + extras + config.routes
  }

  /** The outcome of one poll of the routes endpoint: the validated routes,
      or a failure of the request, the JSON or the validation. */
  datatype Poll = Fetched(routes: seq<Route>) | FetchFailed

  /** `fetchRoutes`: the base routes plus whatever was fetched, sorted; a
      failed poll leaves only the base routes. */
  function FetchRoutes(base: seq<Route>, poll: Poll): seq<Route>
  {
    match poll
    case Fetched(routes) => SortRoutes(base + routes)
    case FetchFailed => SortRoutes(base)
  }

  /** The published table is in score order, holds the base routes and
      the fetched ones and nothing else, and keeps routes of equal score in
      the order base-then-fetched. */
  lemma FetchRoutesOrder(base: seq<Route>, poll: Poll)
    ensures Sorted(Score, FetchRoutes(base, poll))
    ensures poll.Fetched? ==> multiset(FetchRoutes(base, poll)) == multiset(base + poll.routes)
    ensures poll.FetchFailed? ==> multiset(FetchRoutes(base, poll)) == multiset(base)
    ensures poll.Fetched? ==>
      forall k :: WithKey(Score, FetchRoutes(base, poll), k) == WithKey(Score, base + poll.routes, k)
    ensures poll.FetchFailed? ==>
      forall k :: WithKey(Score, FetchRoutes(base, poll), k) == WithKey(Score, base, k)
  {
  }

  /** The table after a series of polls, each of which assigns
      `step(poll)` to the table. */
  function Replay<T>(table: T, step: Poll -> T, polls: seq<Poll>): T
    decreases |polls|
  {
    if |polls| == 0 then table
    else Replay(step(polls[0]), step, polls[1..])
  }

  /** Each poll replaces the whole table, so only the last one counts. */
  lemma {:induction false} ReplayLast<T>(table: T, step: Poll -> T, polls: seq<Poll>)
    requires |polls| >= 1
    ensures Replay(table, step, polls) == step(polls[|polls| - 1])
    decreases |polls|
  {
    if |polls| > 1 {
      ReplayLast(step(polls[0]), step, polls[1..]);
      assert polls[1..][|polls[1..]| - 1] == polls[|polls| - 1];
    }
  }

  /** `app.routes` once the server is serving. With an endpoint, start-up
      awaits the first poll and every interval polls again; `polls` are the
      polls that have completed, in order. Without one the table is the
      base routes sorted, once. */
  function Published(config: AppConfig, internalHosts: string, polls: seq<Poll>): seq<Route>
    requires config.endpoint.Some? ==> |polls| >= 1
  {
    var base := GetBaseRoutes(config, internalHosts);
    if config.endpoint.Some? then Replay([], p => FetchRoutes(base, p), polls)
    else SortRoutes(base)
  }

  /** What is published is decided by the last completed poll alone; a
      failed poll publishes the same table as having no endpoint at all. */
  lemma PublishedLastPoll(config: AppConfig, internalHosts: string, polls: seq<Poll>)
    requires config.endpoint.Some?
    requires |polls| >= 1
    ensures Published(config, internalHosts, polls)
            == FetchRoutes(GetBaseRoutes(config, internalHosts), polls[|polls| - 1])
    ensures polls[|polls| - 1] == FetchFailed ==>
      Published(config, internalHosts, polls) == Published(config.(endpoint := None), internalHosts, [])
  {
    var base := GetBaseRoutes(config, internalHosts);
    ReplayLast([], p => FetchRoutes(base, p), polls);
  }

  /** The health route and every configured route are base routes. */
  lemma BaseRoutesInclude(config: AppConfig, internalHosts: string)
    ensures HealthRoute(internalHosts) in GetBaseRoutes(config, internalHosts)
    ensures forall r :: r in config.routes ==> r in GetBaseRoutes(config, internalHosts)
  {
    var base := GetBaseRoutes(config, internalHosts);
    forall r | r in config.routes ensures r in base {
      var i :| 0 <= i < |config.routes| && config.routes[i] == r;
      assert base[|base| - |config.routes| + i] == r;
    }
  }

  /** Whatever a poll brings, the base routes stay in the table. */
  lemma FetchKeepsBase(base: seq<Route>, poll: Poll)
    ensures multiset(base) <= multiset(FetchRoutes(base, poll))
  {
    FetchRoutesOrder(base, poll);
    if poll.Fetched? {
      assert multiset(base + poll.routes) == multiset(base) + multiset(poll.routes);
    }
  }

  /** The base routes, among them the health route and every configured
      route, are always in the published table, however the polls went. */
  lemma PublishedKeepsBase(config: AppConfig, internalHosts: string, polls: seq<Poll>)
    requires config.endpoint.Some? ==> |polls| >= 1
    ensures multiset(GetBaseRoutes(config, internalHosts))
            <= multiset(Published(config, internalHosts, polls))
    ensures HealthRoute(internalHosts) in Published(config, internalHosts, polls)
    ensures forall r :: r in config.routes ==> r in Published(config, internalHosts, polls)
  {
    var base := GetBaseRoutes(config, internalHosts);
    var t := Published(config, internalHosts, polls);
    if config.endpoint.Some? {
      PublishedLastPoll(config, internalHosts, polls);
      FetchKeepsBase(base, polls[|polls| - 1]);
    }
    assert multiset(base) <= multiset(t);
    BaseRoutesInclude(config, internalHosts);
    forall r | r in base ensures r in t {
      assert r in multiset(base);
    }
  }
}

=== FILE: gateway_examples.dfy ===
/** The documented behaviour of `redirect` and `getProxyRequest`, stated
    for the requests main_test.ts builds. The URL parser stays abstract:
    each example assumes only that the expected target URL parses. */
module GatewayExamples {
  import opened Wrappers
  import opened Lib
  import opened Http
  import opened Config
  import opened Gateway

  lemma SplitSlugPath(p: string)
    requires p == "pathname.groups.slug"
    ensures Split(p, '.') == ["pathname", "groups", "slug"]
  {
    SplitJoin(["pathname", "groups", "slug"], '.');
    assert Join(["pathname", "groups", "slug"], '.') == p;
  }

  /** The capture groups are looked up through the match result. */
  lemma SlugLookup(p: string, groups: Value)
    requires p == "pathname.groups.slug"
    requires groups == Obj(map["pathname" := Obj(map["groups" := Obj(map["slug" := Str("albatross")])])])
    ensures Show(Dot(groups, Split(p, '.'))) == "albatross"
  {
    SplitSlugPath(p);
    var path := ["pathname", "groups", "slug"];
    assert path[1..] == ["groups", "slug"] && path[1..][1..] == ["slug"];
  }

  /** No added parameters leave the parsed query as it is. */
  lemma NoParamsAdded(u: Url)
    ensures u.(query := ApplyParams(u.query, [])) == u
  {
  }

  /** The target of the redirect route of the example: the captured slug
      fills the placeholder. */
  lemma SlugTemplate(url: string, pre: string, p: string, groups: Value)
    requires pre == "https://example.com/" && p == "pathname.groups.slug"
    requires url == pre + "{{ " + p + " }}" + ""
    requires groups == Obj(map["pathname" := Obj(map["groups" := Obj(map["slug" := Str("albatross")])])])
    ensures Template(url, groups) == pre + "albatross" + ""
  {
    TemplateSingle(url, pre, p, "", groups);
    SlugLookup(p, groups);
  }

  /** A redirect whose target names a capture group sends the client to the
      URL with the captured text in its place, with a 302. */
  lemma RedirectSlugExample(rt: Runtime, route: Route, groups: Value, target: string)
    requires route.RedirectRoute?
    requires route.url == "https://example.com/" + "{{ " + "pathname.groups.slug" + " }}" + ""
    requires route.addSearchParams == []
    requires groups == Obj(map["pathname" := Obj(map["groups" := Obj(map["slug" := Str("albatross")])])])
    requires target == "https://example.com/" + "albatross" + ""
    requires rt.parseUrl(target).Some?
    ensures RespondRedirect(rt, route, groups) == Returned(Redirection(302, rt.parseUrl(target).value))
  {
    SlugTemplate(route.url, "https://example.com/", "pathname.groups.slug", groups);
    NoParamsAdded(rt.parseUrl(target).value);
  }

  /** An added search parameter is present, with its value alone, in the
      redirect target. */
  lemma RedirectParamExample(rt: Runtime, route: Route, groups: Value)
    requires route.RedirectRoute?
    requires route.addSearchParams == [("some", "thing")]
    requires rt.parseUrl(Template(route.url, groups)).Some?
    ensures RespondRedirect(rt, route, groups).Returned?
    ensures Values(RespondRedirect(rt, route, groups).value.location.query, "some") == ["thing"]
  {
  }

  /** A Latin-1 value without whitespace at either end and without NUL,
      line feed or carriage return is accepted as it is. */
  lemma PlainValue(v: string)
    requires |v| > 0 && !IsHttpSpace(v[0]) && !IsHttpSpace(v[|v| - 1])
    requires forall i :: 0 <= i < |v| ==> v[i] != '\0' && v[i] != '\n' && v[i] != '\r'
    requires forall i :: 0 <= i < |v| ==> v[i] as int <= 0xFF
    ensures NormalizeValue(v) == v && IsHeaderValue(NormalizeValue(v)) && IsByteString(v)
  {
    NormalizeClean(v);
  }

  /** The request main_test.ts sends through `getProxyRequest`: a POST with
      the body `hello` to `http://testing.local`, from 127.0.0.1, for a
      route whose target parses to a URL of host `example.com` without
      credentials. */
  ghost predicate TestRequest(rt: Runtime, route: Route, groups: Value, request: Request,
                              remoteHost: string)
  {
    && route.ProxyRoute?
    && rt.parseUrl(Template(route.url, groups)).Some?
    && rt.parseUrl(Template(route.url, groups)).value.hostname == "example.com"
    && rt.parseUrl(Template(route.url, groups)).value.username == ""
    && rt.parseUrl(Template(route.url, groups)).value.password == ""
    && request.verb == "POST" && request.body == Some("hello")
    && rt.parseUrl(request.url).Some? && rt.parseUrl(request.url).value.protocol == "http:"
    && remoteHost == "127.0.0.1"
  }

  lemma TestValues(host: string, remoteHost: string, proto: string)
    requires host == "example.com" && remoteHost == "127.0.0.1" && proto == "http"
    ensures NormalizeValue(host) == host && NormalizeValue(remoteHost) == remoteHost
    ensures NormalizeValue(proto) == proto
    ensures ForwardingValid(host, remoteHost, proto)
  {
    PlainValue(host);
    PlainValue(remoteHost);
    PlainValue(proto);
  }

  /** A POST with a body is accepted and keeps its method. */
  lemma PostAccepted(u: Url, verb: string, body: Option<string>)
    requires u.username == "" && u.password == ""
    requires verb == "POST"
    ensures !RequestRefused(u, verb, body)
    ensures NormalizeMethod(verb) == Some("POST")
  {
    assert Upper(verb) == "POST";
  }

  /** `new Request` upper-cases a standard method, refuses TRACE, and keeps
      any other method as written. */
  lemma MethodExamples(post: string, trace: string, patch: string)
    requires post == "post" && trace == "TRACE" && patch == "patch"
    ensures NormalizeMethod(post) == Some("POST")
    ensures NormalizeMethod(trace) == None
    ensures NormalizeMethod(patch) == Some("patch")
  {
    assert Upper(post) == "POST";
    assert Upper(trace) == "TRACE";
    assert Upper(patch) == "PATCH";
  }

  lemma TestForwarding(rt: Runtime, route: Route, groups: Value, request: Request,
                       remoteHost: string)
    requires TestRequest(rt, route, groups, request, remoteHost)
    ensures ForwardedProto(rt, request.url) == "http"
    ensures TestRequest(rt, route, groups, request, remoteHost)
            && ForwardingValid(rt.parseUrl(Template(route.url, groups)).value.hostname, remoteHost,
                               ForwardedProto(rt, request.url))
  {
    StripColonInverse("http");
    assert "http" + ":" == "http:";
    TestValues("example.com", "127.0.0.1", "http");
  }

  /** The request is built: it goes to the route's URL with the inbound
      method and body, and does not follow redirects. */
  lemma ProxyCreatesRequestExample(rt: Runtime, route: Route, groups: Value, request: Request,
                                   remoteHost: string)
    requires TestRequest(rt, route, groups, request, remoteHost)
    requires route.addHeaders == [] && route.addSearchParams == []
    ensures GetProxyRequest(rt, route, groups, request, remoteHost).Returned?
    ensures var out := GetProxyRequest(rt, route, groups, request, remoteHost).value;
      && out.url == rt.parseUrl(Template(route.url, groups)).value
      && out.verb == "POST"
      && out.redirect == Manual
      && out.body == Some("hello")
  {
    TestForwarding(rt, route, groups, request, remoteHost);
    PostAccepted(rt.parseUrl(Template(route.url, groups)).value, request.verb, request.body);
    NoParamsAdded(rt.parseUrl(Template(route.url, groups)).value);
  }

  /** The forwarding headers name the target host, the client and the
      inbound scheme. */
  lemma ProxyForwardingExample(rt: Runtime, route: Route, groups: Value, request: Request,
                               remoteHost: string)
    requires TestRequest(rt, route, groups, request, remoteHost)
    requires route.addHeaders == []
    ensures GetProxyRequest(rt, route, groups, request, remoteHost).Returned?
    ensures var out := GetProxyRequest(rt, route, groups, request, remoteHost).value;
      && GetHeader(out.headers, HostHeader) == Some("example.com")
      && GetHeader(out.headers, RealIpHeader) == Some("127.0.0.1")
      && GetHeader(out.headers, ForwardedHostHeader) == Some("example.com")
      && GetHeader(out.headers, ForwardedForHeader) == Some("127.0.0.1")
      && GetHeader(out.headers, ForwardedProtoHeader) == Some("http")
  {
    TestForwarding(rt, route, groups, request, remoteHost);
    PostAccepted(rt.parseUrl(Template(route.url, groups)).value, request.verb, request.body);
    TestValues("example.com", "127.0.0.1", "http");
    ProxyRequestHeaders(rt, route, groups, request, remoteHost);
  }

  /** The header main_test.ts adds is accepted, kept as written, and is
      not a forwarding header. */
  lemma AuthorizationHeader(name: string, value: string)
    requires name == "authorization" && value == "not_secret"
    ensures ValidEntries([(name, value)])
    ensures NormalizeValue(value) == value
    ensures !IsForwardingHeader(name)
  {
    PlainValue(value);
    assert IsToken(name);
    assert [(name, value)][0] == (name, value);
    assert |Lower(name)| == 13;
    ForwardingNamesDistinct();
  }

  /** A header from `addHeaders` reaches the upstream request. */
  lemma ProxyAddsHeaderExample(rt: Runtime, route: Route, groups: Value, request: Request,
                               remoteHost: string, name: string, value: string)
    requires TestRequest(rt, route, groups, request, remoteHost)
    requires name == "authorization" && value == "not_secret"
    requires route.addHeaders == [(name, value)]
    ensures GetProxyRequest(rt, route, groups, request, remoteHost).Returned?
    ensures GetHeader(GetProxyRequest(rt, route, groups, request, remoteHost).value.headers, name)
            == Some("not_secret")
  {
    TestForwarding(rt, route, groups, request, remoteHost);
    PostAccepted(rt.parseUrl(Template(route.url, groups)).value, request.verb, request.body);
    AuthorizationHeader(name, value);
    ProxyRequestHeaders(rt, route, groups, request, remoteHost);
    assert LastHeader(route.addHeaders, name) == Some(value);
  }
}

=== FILE: http.dfy ===
/** The web-platform values the gateway builds and reads: URLs with their
    search parameters, header lists and requests. Parsing and serialising
    URLs is foreign code and stays abstract; what main.ts does to these
    values (`searchParams.set`, `headers.set` with the checks it makes,
    `new Request` with the checks it makes) is modelled here. */
module Http {
  import opened Wrappers

  // ---------------------------------------------------------------------
  // Search parameters: `URLSearchParams.prototype.set`
  // ---------------------------------------------------------------------

  /** The name/value pairs of a URL's query, in order. */
  type Query = seq<(string, string)>

  /** `getAll(name)`: the values stored under `name`, in order. */
  function Values(q: Query, name: string): seq<string>
  {
    if |q| == 0 then []
    else (if q[0].0 == name then [q[0].1] else []) + Values(q[1..], name)
  }

  /** The query with every pair named `name` removed. */
  function Without(q: Query, name: string): Query
  {
    if |q| == 0 then []
    else (if q[0].0 == name then [] else [q[0]]) + Without(q[1..], name)
  }

  /** The pairs whose names are not in `names`, in order. */
  function Keep(q: Query, names: set<string>): Query
  {
    if |q| == 0 then []
    else (if q[0].0 in names then [] else [q[0]]) + Keep(q[1..], names)
  }

  lemma {:induction false} KeepNothing(q: Query)
    ensures Keep(q, {}) == q
  {
    if |q| > 0 {
      KeepNothing(q[1..]);
      assert q == [q[0]] + q[1..];
    }
  }

  function RemoveAll(q: Query, name: string): (r: Query)
    ensures |r| <= |q|
    ensures Values(r, name) == []
    ensures forall n :: n != name ==> Values(r, n) == Values(q, n)
    ensures Without(r, name) == Without(q, name)
  {
    if |q| == 0 then []
    else if q[0].0 == name then RemoveAll(q[1..], name)
    else [q[0]] + RemoveAll(q[1..], name)
  }

  /** Removing a name keeps the pairs of every name outside a set holding
      it, in order. */
  lemma {:induction false} RemoveAllKeeps(q: Query, name: string)
    ensures forall names :: name in names ==> Keep(RemoveAll(q, name), names) == Keep(q, names)
  {
    if |q| > 0 {
      RemoveAllKeeps(q[1..], name);
      if q[0].0 != name {
        assert ([q[0]] + RemoveAll(q[1..], name))[1..] == RemoveAll(q[1..], name);
      }
    }
  }

  /** `set(name, value)`: the first pair named `name` gets the new value and
      the later ones are removed; with no such pair, the pair is appended.
      Afterwards `name` holds exactly `value`, and the pairs of every other
      name are where and as they were. */
  function SetParam(q: Query, name: string, value: string): (r: Query)
    ensures Values(r, name) == [value]
    ensures forall n :: n != name ==> Values(r, n) == Values(q, n)
    ensures Without(r, name) == Without(q, name)
    ensures forall names :: name in names ==> Keep(r, names) == Keep(q, names)
    ensures |r| <= |q| + 1
  {
    if |q| == 0 then [(name, value)]
    else if q[0].0 == name then RemoveAllKeeps(q[1..], name); [(name, value)] + RemoveAll(q[1..], name)
    else [q[0]] + SetParam(q[1..], name, value)
  }

  /** With no pair named `name`, `set` appends the pair at the end. */
  lemma {:induction false} SetParamAppends(q: Query, name: string, value: string)
    requires forall i :: 0 <= i < |q| ==> q[i].0 != name
    ensures SetParam(q, name, value) == q + [(name, value)]
  {
    if |q| > 0 {
      assert forall i :: 0 <= i < |q[1..]| ==> q[1..][i].0 != name by {
        forall i | 0 <= i < |q[1..]| ensures q[1..][i].0 != name { assert q[1..][i] == q[i + 1]; }
      }
      SetParamAppends(q[1..], name, value);
      assert q == [q[0]] + q[1..];
    }
  }

  /** `set` puts the pair in place of the first pair named `name`, after
      the pairs before it. */
  lemma {:induction false} SetParamInPlace(q: Query, name: string, value: string, i: nat)
    requires i < |q| && q[i].0 == name
    requires forall j :: 0 <= j < i ==> q[j].0 != name
    ensures var r := SetParam(q, name, value);
            |r| > i && r[..i] == q[..i] && r[i] == (name, value)
  {
    if i > 0 {
      var t := q[1..];
      assert q[0].0 != name;
      assert t[i - 1] == q[i];
      assert forall j :: 0 <= j < i - 1 ==> t[j].0 != name by {
        forall j | 0 <= j < i - 1 ensures t[j].0 != name { assert t[j] == q[j + 1]; }
      }
      SetParamInPlace(t, name, value, i - 1);
      var r := SetParam(q, name, value);
      var rt := SetParam(t, name, value);
      assert r == [q[0]] + rt;
      assert r[..i] == [q[0]] + rt[..i - 1];
      assert q[..i] == [q[0]] + t[..i - 1];
    }
  }

  /** The value of the last entry named `name`: the one a series of `set`
      calls leaves in place. */
  function LastParam(entries: seq<(string, string)>, name: string): Option<string>
  {
    if |entries| == 0 then None
    else match LastParam(entries[1..], name)
      case Some(v) => Some(v)
      case None => if entries[0].0 == name then Some(entries[0].1) else None
  }

  /** `for (const [name, value] of Object.entries(adds)) url.searchParams.set(name, value)`.
      Every name that is set ends up with the last value given for it and
      nothing else; the pairs of every other name stay as and in the order
      they were. */
  function ApplyParams(q: Query, entries: seq<(string, string)>): (r: Query)
    ensures forall n :: Values(r, n) == (match LastParam(entries, n)
                                         case Some(v) => [v]
                                         case None => Values(q, n))
    ensures forall names :: (forall i :: 0 <= i < |entries| ==> entries[i].0 in names)
                            ==> Keep(r, names) == Keep(q, names)
    decreases |entries|
  {
    if |entries| == 0 then q
    else ApplyParams(SetParam(q, entries[0].0, entries[0].1), entries[1..])
  }

  // ---------------------------------------------------------------------
  // Headers: `Headers.prototype.set` and `get`
  // ---------------------------------------------------------------------

  function LowerChar(c: char): char
  {
    if 'A' <= c <= 'Z' then (c as int + 32) as char else c
  }

  /** ASCII lower-casing: header names are compared case-insensitively. */
  function Lower(s: string): (r: string)
    ensures |r| == |s|
    ensures forall i :: 0 <= i < |s| ==> r[i] == LowerChar(s[i])
  {
    seq(|s|, i requires 0 <= i < |s| => LowerChar(s[i]))
  }

  /** A header list: each name holds one value, stored under its
      lower-cased spelling. */
  type Headers = map<string, string>

  /** Every stored name is lower-case. `SetHeader` writes only lower-cased
      names (`SetHeaderKeepsLowerKeys`), so the gateway keeps this shape
      (`Gateway.ProxyRequestLowerKeyed`). */
  ghost predicate LowerKeyed(h: Headers)
  {
    forall k :: k in h ==> Lower(k) == k
  }

  lemma LowerIdempotent(s: string)
    ensures Lower(Lower(s)) == Lower(s)
  {
  }

  /** `headers.get(name)`. */
  function GetHeader(h: Headers, name: string): Option<string>
  {
    if Lower(name) in h then Some(h[Lower(name)]) else None
  }

  /** Stores `value` under `name`, replacing whatever `name` held in any
      spelling of its case, and leaving every other name alone. */
  function SetHeader(h: Headers, name: string, value: string): (r: Headers)
    ensures GetHeader(r, name) == Some(value)
    ensures forall n :: Lower(n) != Lower(name) ==> GetHeader(r, n) == GetHeader(h, n)
  {
    LowerIdempotent(name);
    h[Lower(name) := value]
  }

  /** Setting a header keeps every stored name lower-case, and stores the
      name under its lower-cased spelling alone. */
  lemma SetHeaderKeepsLowerKeys(h: Headers, name: string, value: string)
    requires LowerKeyed(h)
    ensures LowerKeyed(SetHeader(h, name, value))
    ensures SetHeader(h, name, value).Keys == h.Keys + {Lower(name)}
  {
    LowerIdempotent(name);
  }

  /** The value of the last entry whose name matches `name` without regard
      to case. */
  function LastHeader(entries: seq<(string, string)>, name: string): Option<string>
  {
    if |entries| == 0 then None
    else match LastHeader(entries[1..], name)
      case Some(v) => Some(v)
      case None => if Lower(entries[0].0) == Lower(name) then Some(entries[0].1) else None
  }

  /** `SetHeader` for every entry in turn: an added header overrides the
      inbound one, a later spelling of the same name overrides an earlier
      one, and other headers pass through. */
  function ApplyHeaders(h: Headers, entries: seq<(string, string)>): (r: Headers)
    ensures forall n :: GetHeader(r, n) == (match LastHeader(entries, n)
                                            case Some(v) => Some(v)
                                            case None => GetHeader(h, n))
    decreases |entries|
  {
    if |entries| == 0 then h
    else ApplyHeaders(SetHeader(h, entries[0].0, entries[0].1), entries[1..])
  }

  /** A character of the `tchar` rule of section 5.6.2 of RFC 9110. */
  predicate IsTokenChar(c: char)
  {
    || ('a' <= c <= 'z') || ('A' <= c <= 'Z') || ('0' <= c <= '9')
    || c == '!' || c == '#' || c == '$' || c == '%' || c == '&' || c == '\''
    || c == '*' || c == '+' || c == '-' || c == '.' || c == '^' || c == '_'
    || c == '`' || c == '|' || c == '~'
  }

  /** A token: what a header name and a method must be. */
  predicate IsToken(s: string)
  {
    |s| >= 1 && forall i :: 0 <= i < |s| ==> IsTokenChar(s[i])
  }

  /** HTTP whitespace of the Fetch standard: tab, line feed, carriage
      return and space. */
  predicate IsHttpSpace(c: char)
  {
    c == '\t' || c == '\n' || c == '\r' || c == ' '
  }

  /** Drops the leading HTTP whitespace. */
  function TrimStart(v: string): (r: string)
    ensures |r| <= |v| && r == v[|v| - |r|..]
    ensures forall k :: 0 <= k < |v| - |r| ==> IsHttpSpace(v[k])
    ensures |r| > 0 ==> !IsHttpSpace(r[0])
    decreases |v|
  {
    if |v| > 0 && IsHttpSpace(v[0]) then TrimStart(v[1..]) else v
  }

  /** Drops the trailing HTTP whitespace. */
  function TrimEnd(v: string): (r: string)
    ensures |r| <= |v| && r == v[..|r|]
    ensures forall k :: |r| <= k < |v| ==> IsHttpSpace(v[k])
    ensures |r| > 0 ==> !IsHttpSpace(r[|r| - 1])
    decreases |v|
  {
    if |v| > 0 && IsHttpSpace(v[|v| - 1]) then TrimEnd(v[..|v| - 1]) else v
  }

  /** The normalisation `headers.set` applies to a value: leading and
      trailing HTTP whitespace removed. */
  function NormalizeValue(v: string): string
  {
    TrimEnd(TrimStart(v))
  }

  /** A normalised value neither starts nor ends with HTTP whitespace, and
      a value that does neither is its own normalisation; so normalising
      twice is normalising once. */
  lemma NormalizeValueSpec(v: string)
    ensures var r := NormalizeValue(v);
      |r| == 0 || (!IsHttpSpace(r[0]) && !IsHttpSpace(r[|r| - 1]))
    ensures (|v| == 0 || (!IsHttpSpace(v[0]) && !IsHttpSpace(v[|v| - 1]))) ==> NormalizeValue(v) == v
    ensures NormalizeValue(NormalizeValue(v)) == NormalizeValue(v)
  {
    var t := TrimStart(v);
    var r := TrimEnd(t);
    if |r| > 0 {
      assert r[0] == t[0];
    }
    NormalizeClean(r);
  }

  lemma NormalizeClean(v: string)
    requires |v| == 0 || (!IsHttpSpace(v[0]) && !IsHttpSpace(v[|v| - 1]))
    ensures NormalizeValue(v) == v
  {
  }

  /** A header value after normalisation may not contain NUL, line feed or
      carriage return. */
  predicate IsHeaderValue(v: string)
  {
    forall i :: 0 <= i < |v| ==> v[i] != '\0' && v[i] != '\n' && v[i] != '\r'
  }

  /** A WebIDL `ByteString`: every character is at most U+00FF. Both
      arguments of `headers.set` are converted to one first, and the
      conversion throws a TypeError on any other string. A token is always
      one, so only the value can fail this check. */
  predicate IsByteString(v: string)
  {
    forall i :: 0 <= i < |v| ==> v[i] as int <= 0xFF
  }

  /** What `headers.set(name, value)` accepts; anything else makes it throw
      a TypeError. */
  predicate ValidHeader(name: string, value: string)
  {
    IsToken(name) && IsByteString(value) && IsHeaderValue(NormalizeValue(value))
  }

  /** A value outside Latin-1, such as `東京`, is refused under any name. */
  lemma NonLatinRefused(name: string, value: string)
    requires exists i :: 0 <= i < |value| && value[i] as int > 0xFF
    ensures !ValidHeader(name, value)
    ensures SetAll(map[], [(name, value)]).Threw?
  {
  }

  lemma TokyoRefused(value: string)
    requires value == "\U{6771}\U{4EAC}"
    ensures SetAll(map[], [("x-city", value)]).Threw?
  {
    assert value[0] as int > 0xFF;
    NonLatinRefused("x-city", value);
  }

  predicate ValidEntries(entries: seq<(string, string)>)
  {
    forall i :: 0 <= i < |entries| ==> ValidHeader(entries[i].0, entries[i].1)
  }

  /** The entries with their values normalised. */
  function NormalizeEntries(entries: seq<(string, string)>): (r: seq<(string, string)>)
    ensures |r| == |entries|
    ensures forall i :: 0 <= i < |r| ==> r[i] == (entries[i].0, NormalizeValue(entries[i].1))
  {
    seq(|entries|, i requires 0 <= i < |entries| => (entries[i].0, NormalizeValue(entries[i].1)))
  }

  /** `for (const [name, value] of Object.entries(adds)) headers.set(name, value)`:
      each entry is checked and its value normalised before it is stored;
      the first invalid entry throws. */
  function SetAll(h: Headers, entries: seq<(string, string)>): Outcome<Headers>
    decreases |entries|
  {
    if |entries| == 0 then Returned(h)
    else if !ValidHeader(entries[0].0, entries[0].1) then Threw
    else SetAll(SetHeader(h, entries[0].0, NormalizeValue(entries[0].1)), entries[1..])
  }

  /** The loop throws exactly when some entry is invalid; otherwise it
      stores every normalised entry, the last spelling of a name winning. */
  lemma ValidEntriesCons(entries: seq<(string, string)>)
    requires |entries| > 0
    ensures ValidEntries(entries) <==>
              ValidHeader(entries[0].0, entries[0].1) && ValidEntries(entries[1..])
  {
    if ValidHeader(entries[0].0, entries[0].1) && ValidEntries(entries[1..]) {
      forall i | 0 <= i < |entries| ensures ValidHeader(entries[i].0, entries[i].1) {
        if i > 0 {
          assert entries[i] == entries[1..][i - 1];
        }
      }
    }
  }

  lemma NormalizeEntriesCons(entries: seq<(string, string)>)
    requires |entries| > 0
    ensures NormalizeEntries(entries)[0] == (entries[0].0, NormalizeValue(entries[0].1))
    ensures NormalizeEntries(entries)[1..] == NormalizeEntries(entries[1..])
  {
  }

  /** The loop throws exactly when some entry is invalid; otherwise it
      stores every normalised entry, the last spelling of a name winning. */
  lemma {:induction false} SetAllSpec(h: Headers, entries: seq<(string, string)>)
    ensures SetAll(h, entries).Threw? <==> !ValidEntries(entries)
    ensures SetAll(h, entries).Returned? ==>
              SetAll(h, entries).value == ApplyHeaders(h, NormalizeEntries(entries))
    decreases |entries|
  {
    if |entries| > 0 {
      ValidEntriesCons(entries);
      NormalizeEntriesCons(entries);
      SetAllSpec(SetHeader(h, entries[0].0, NormalizeValue(entries[0].1)), entries[1..]);
    }
  }

  /** The checked loop keeps every stored name lower-case. */
  lemma {:induction false} SetAllKeepsLowerKeys(h: Headers, entries: seq<(string, string)>)
    requires LowerKeyed(h)
    ensures SetAll(h, entries).Returned? ==> LowerKeyed(SetAll(h, entries).value)
    decreases |entries|
  {
    if |entries| > 0 && ValidHeader(entries[0].0, entries[0].1) {
      SetHeaderKeepsLowerKeys(h, entries[0].0, NormalizeValue(entries[0].1));
      SetAllKeepsLowerKeys(SetHeader(h, entries[0].0, NormalizeValue(entries[0].1)), entries[1..]);
    }
  }

  // ---------------------------------------------------------------------
  // URLs and requests
  // ---------------------------------------------------------------------

  /** A parsed URL: `protocol` keeps its trailing colon, as `URL.protocol`
      does. Serialisation is foreign and not modelled. */
  datatype Url = Url(protocol: string, username: string, password: string, hostname: string,
                     port: string, pathname: string, query: Query, hash: string)

  /** An inbound request as the gateway sees it; `verb` is its HTTP method
      and `body` is `None` where `request.body` is null. */
  datatype Request = Request(url: string, verb: string, headers: Headers, body: Option<string>)

  /** The `redirect` option of a fetch request. */
  datatype RedirectMode = Follow | Error | Manual

  /** A request the gateway sends upstream. */
  datatype OutboundRequest = OutboundRequest(url: Url, verb: string, headers: Headers,
                                             body: Option<string>, redirect: RedirectMode)

  function UpperChar(c: char): char
  {
    if 'a' <= c <= 'z' then (c as int - 32) as char else c
  }

  function Upper(s: string): (r: string)
    ensures |r| == |s|
    ensures forall i :: 0 <= i < |s| ==> r[i] == UpperChar(s[i])
  {
    seq(|s|, i requires 0 <= i < |s| => UpperChar(s[i]))
  }

  /** The methods the `Request` constructor refuses, in any case. */
  predicate IsForbiddenMethod(m: string)
  {
    var u := Upper(m);
    u == "CONNECT" || u == "TRACE" || u == "TRACK"
  }

  /** The methods the `Request` constructor upper-cases. */
  predicate IsNormalizedMethod(m: string)
  {
    var u := Upper(m);
    u == "DELETE" || u == "GET" || u == "HEAD" || u == "OPTIONS" || u == "POST" || u == "PUT"
  }

  /** The `method` option of `new Request`: a token that is not forbidden,
      with the six standard methods upper-cased and any other kept as
      written. `None` is the TypeError. */
  function NormalizeMethod(m: string): Option<string>
  {
    if !IsToken(m) || IsForbiddenMethod(m) then None
    else if IsNormalizedMethod(m) then Some(Upper(m))
    else Some(m)
  }

  lemma UpperIdempotent(s: string)
    ensures Upper(Upper(s)) == Upper(s)
  {
  }

  /** A normalised method is accepted and left as it is. */
  lemma NormalizeMethodIdempotent(m: string)
    ensures NormalizeMethod(m).Some? ==> NormalizeMethod(NormalizeMethod(m).value) == NormalizeMethod(m)
  {
    UpperIdempotent(m);
    var u := Upper(m);
    if IsToken(m) {
      assert IsToken(u) by {
        forall i | 0 <= i < |u| ensures IsTokenChar(u[i]) {
          assert IsTokenChar(m[i]);
        }
      }
    }
  }

  /** `new Request(url, {method, headers, body, redirect: 'manual'})`: a URL
      with a user name or password, an unacceptable method, or a body on a
      GET or HEAD make it throw. */
  function NewRequest(url: Url, verb: string, headers: Headers, body: Option<string>)
    : Outcome<OutboundRequest>
  {
    if url.username != "" || url.password != "" then Threw
    else match NormalizeMethod(verb)
      case None => Threw
      case Some(m) =>
        if body.Some? && (m == "GET" || m == "HEAD") then Threw
        else Returned(OutboundRequest(url, m, headers, body, Manual))
  }
}

=== FILE: lib.dfy ===
/** The template engine of lib.ts: `dot`, a total dotted-path walker over
    JavaScript values, and `template`, which replaces `{{ path }}`
    placeholders with what `dot` finds. */
module Lib {
  import opened Wrappers

  /** The JavaScript values a URL-pattern capture object is made of.
      Numbers are integers; inherited properties are not part of the model. */
  datatype Value =
    | Undefined
    | Null
    | Bool(b: bool)
    | Num(n: int)
    | Str(s: string)
    | Arr(elems: seq<Value>)
    | Obj(props: map<string, Value>)

  /** `typeof value === 'object' && value !== null`: the values with
      properties of their own. */
  predicate HasProps(v: Value)
  {
    v.Arr? || v.Obj?
  }

  /** `object[key]`: an own property, or undefined when there is none. */
  function Prop(props: map<string, Value>, key: string): Value
  {
    if key in props then props[key] else Undefined
  }

  /** The array index a property key names: a decimal numeral without a
      leading zero ("0", "7", "12"; not "07", "+1" or "1.0"). */
  function ParseIndex(key: string): Option<nat>
  {
    if |key| >= 1 && (forall i :: 0 <= i < |key| ==> '0' <= key[i] <= '9')
       && (key[0] != '0' || |key| == 1)
    then Some(DecimalValue(key))
    else None
  }

  /** `array[key]`: the element at an index within bounds, the length for
      "length", and undefined for any other key. */
  function Element(elems: seq<Value>, key: string): Value
  {
    if key == "length" then Num(|elems|)
    else match ParseIndex(key)
      case Some(i) => if i < |elems| then elems[i] else Undefined
      case None => Undefined
  }

  /** `value[key]` on any value. */
  function Get(v: Value, key: string): Value
  {
    match v
    case Arr(elems) => Element(elems, key)
    case Obj(props) => Prop(props, key)
    case _ => Undefined
  }

  /** `dot(value, key)`: undefined, null and non-objects stop the walk with
      undefined; otherwise the head key is looked up, and the walk continues
      while more keys remain. An empty path reads the property named
      "undefined", as `value[undefined]` does. */
  function Dot(v: Value, path: seq<string>): Value
    decreases |path|
  {
    if !HasProps(v) then Undefined
    else if |path| > 1 then Dot(Get(v, path[0]), path[1..])
    else Get(v, if |path| == 1 then path[0] else "undefined")
  }

  /** A single key on an object reads that property, which may be undefined. */
  lemma DotSingleKey(props: map<string, Value>, key: string)
    ensures Dot(Obj(props), [key]) == (if key in props then props[key] else Undefined)
  {
  }

  /** A multi-segment path is walked one key per segment: looking up `p + q`
      is looking up `q` in whatever `p` reaches. */
  lemma {:induction false} DotPath(v: Value, p: seq<string>, q: seq<string>)
    requires |p| >= 1 && |q| >= 1
    ensures Dot(v, p + q) == Dot(Dot(v, p), q)
    decreases |p|
  {
    if !HasProps(v) {
      assert Dot(v, p + q) == Undefined;
    } else if |p| == 1 {
      assert (p + q)[0] == p[0];
      assert (p + q)[1..] == q;
    } else {
      assert (p + q)[0] == p[0];
      assert (p + q)[1..] == p[1..] + q;
      DotPath(Get(v, p[0]), p[1..], q);
    }
  }

  /** The walk is total: once a prefix of the path reaches undefined, null or
      any other value without properties, every longer path reads
      undefined. */
  lemma DotStopsEarly(v: Value, p: seq<string>, q: seq<string>)
    requires |p| >= 1 && |q| >= 1
    requires !HasProps(Dot(v, p))
    ensures Dot(v, p + q) == Undefined
  {
    DotPath(v, p, q);
  }

  /** An array reads its elements under the decimal text of their indices,
      and its length under "length"; past the end it reads undefined. */
  lemma ArrayLookup(elems: seq<Value>, i: nat)
    ensures Dot(Arr(elems), ["length"]) == Num(|elems|)
    ensures Dot(Arr(elems), [NatToString(i)]) == if i < |elems| then elems[i] else Undefined
  {
    ParseIndexOf(i);
  }

  /** The decimal text of a number names that number as an index. */
  lemma ParseIndexOf(i: nat)
    ensures ParseIndex(NatToString(i)) == Some(i)
  {
    NatToStringValue(i);
  }

  lemma DigitOfValue(c: char)
    requires '0' <= c <= '9'
    ensures Digit(DigitValue(c)) == c
  {
    assert "0123456789"[c as int - '0' as int] == c;
  }

  /** Every index key is the decimal text of the index it names, so keys
      and indices correspond one to one. */
  lemma {:induction false} ParseIndexCanonical(key: string)
    requires ParseIndex(key).Some?
    ensures NatToString(ParseIndex(key).value) == key
    decreases |key|
  {
    var n := DecimalValue(key);
    var last := key[|key| - 1];
    DigitOfValue(last);
    if |key| >= 2 {
      var p := key[..|key| - 1];
      assert p[0] == key[0];
      assert ParseIndex(p).Some?;
      ParseIndexCanonical(p);
      var q := DecimalValue(p);
      assert NatToString(q) == p;
      NatToStringValue(0);
      assert q != 0;
      assert n == q * 10 + DigitValue(last);
      assert n / 10 == q && n % 10 == DigitValue(last);
      assert key == p + [last];
    }
  }

  // ---------------------------------------------------------------------
  // Turning a looked-up value into text
  // ---------------------------------------------------------------------

  function Digit(d: nat): char
    requires d < 10
  {
    "0123456789"[d]
  }

  function DigitValue(c: char): nat
  {
    if '0' <= c <= '9' then (c as int - '0' as int) as nat else 0
  }

  /** The number a string of decimal digits denotes. */
  function DecimalValue(s: string): nat
  {
    if |s| == 0 then 0 else DecimalValue(s[..|s| - 1]) * 10 + DigitValue(s[|s| - 1])
  }

  /** Decimal notation of a natural number, as `String(n)` writes it: one or
      more digits, with no leading zero. */
  function NatToString(n: nat): (r: string)
    ensures |r| >= 1
    ensures forall i :: 0 <= i < |r| ==> '0' <= r[i] <= '9'
    ensures r[0] == '0' ==> n == 0
  {
    if n < 10 then [Digit(n)] else NatToString(n / 10) + [Digit(n % 10)]
  }

  lemma DigitValueOf(d: nat)
    requires d < 10
    ensures DigitValue(Digit(d)) == d
  {
    assert "0123456789"[d] as int == '0' as int + d;
  }

  /** The digits denote `n`, so distinct numbers render differently. */
  lemma {:induction false} NatToStringValue(n: nat)
    ensures DecimalValue(NatToString(n)) == n
    ensures NatToString(n)[0] == '0' ==> NatToString(n) == "0"
  {
    var r := NatToString(n);
    if n < 10 {
      DigitValueOf(n);
    } else {
      var q, d := n / 10, n % 10;
      assert r == NatToString(q) + [Digit(d)];
      assert r[..|r| - 1] == NatToString(q);
      NatToStringValue(q);
      DigitValueOf(d);
      assert DecimalValue(r) == q * 10 + d;
    }
  }

  function IntToString(n: int): string
  {
    if n < 0 then "-" + NatToString(-n) else NatToString(n)
  }

  /** The text the template replacer inserts: `dot(...) ?? ''`, then the
      string conversion `String.prototype.replace` applies to it. An array
      converts as `join(',')` does, with undefined and null elements as
      empty text. */
  function Show(v: Value): string
    decreases v
  {
    match v
    case Undefined => ""
    case Null => ""
    case Bool(b) => if b then "true" else "false"
    case Num(n) => IntToString(n)
    case Str(s) => s
    case Arr(elems) =>
      if |elems| == 0 then ""
      else Join(seq(|elems|, i requires 0 <= i < |elems| => Show(elems[i])), ',')
    case Obj(_) => "[object Object]"
  }

  /** An array's text is its first element's text, then a comma and the
      text of the rest when there is more. */
  lemma ShowArrayCons(x: Value, rest: seq<Value>)
    ensures Show(Arr([x] + rest)) == if |rest| == 0 then Show(x) else Show(x) + "," + Show(Arr(rest))
  {
    var e := [x] + rest;
    var parts := seq(|e|, i requires 0 <= i < |e| => Show(e[i]));
    assert parts[0] == Show(x);
    if |rest| > 0 {
      assert parts[1..] == seq(|rest|, i requires 0 <= i < |rest| => Show(rest[i]));
    }
  }

  /** Only null, undefined, the empty string, the empty array and a
      one-element array of such a value render as nothing; other falsy
      values such as 0 and false keep their text. */
  lemma ShowEmpty(v: Value)
    ensures Show(v) == "" <==>
      || v == Undefined || v == Null || v == Str("")
      || (v.Arr? && (|v.elems| == 0 || (|v.elems| == 1 && Show(v.elems[0]) == "")))
    ensures v == Num(0) ==> Show(v) == "0"
  {
    if v.Arr? && |v.elems| >= 1 {
      ShowArrayCons(v.elems[0], v.elems[1..]);
      assert [v.elems[0]] + v.elems[1..] == v.elems;
    }
  }

  // ---------------------------------------------------------------------
  // `String.prototype.split` with a one-character separator
  // ---------------------------------------------------------------------

  /** Glues the parts back together with the separator between them. */
  function Join(parts: seq<string>, sep: char): string
    requires |parts| >= 1
  {
    if |parts| == 1 then parts[0] else parts[0] + [sep] + Join(parts[1..], sep)
  }

  /** `s.split(sep)`: the separator-free pieces between separators, empty
      ones included; there is always at least one piece. */
  function Split(s: string, sep: char): (parts: seq<string>)
    ensures |parts| >= 1
  {
    if |s| == 0 then [""]
    else
      var rest := Split(s[1..], sep);
      if s[0] == sep then [""] + rest else [[s[0]] + rest[0]] + rest[1..]
  }

  lemma SplitCons(c: char, t: string, sep: char)
    ensures Split([c] + t, sep)
         == if c == sep then [""] + Split(t, sep)
            else [[c] + Split(t, sep)[0]] + Split(t, sep)[1..]
  {
    assert ([c] + t)[1..] == t;
  }

  lemma JoinCons(c: char, parts: seq<string>, sep: char)
    requires |parts| >= 1
    ensures Join([[c] + parts[0]] + parts[1..], sep) == [c] + Join(parts, sep)
  {
    var q := [[c] + parts[0]] + parts[1..];
    assert q[1..] == parts[1..];
  }

  /** No piece contains the separator, and joining the pieces with it gives
      back the original string. */
  lemma {:induction false} JoinSplit(s: string, sep: char)
    ensures forall i :: 0 <= i < |Split(s, sep)| ==> sep !in Split(s, sep)[i]
    ensures Join(Split(s, sep), sep) == s
    decreases |s|
  {
    if |s| > 0 {
      var rest := Split(s[1..], sep);
      JoinSplit(s[1..], sep);
      assert s == [s[0]] + s[1..];
      SplitCons(s[0], s[1..], sep);
      if s[0] != sep {
        JoinCons(s[0], rest, sep);
      } else {
        assert ([""] + rest)[1..] == rest;
      }
    }
  }

  /** Splitting undoes joining pieces that contain no separator. */
  lemma {:induction false} SplitJoin(parts: seq<string>, sep: char)
    requires |parts| >= 1
    requires forall i :: 0 <= i < |parts| ==> sep !in parts[i]
    ensures Split(Join(parts, sep), sep) == parts
    decreases |parts|, |parts[0]|
  {
    var p := parts[0];
    if |p| == 0 {
      if |parts| > 1 {
        var tail := Join(parts[1..], sep);
        SplitJoin(parts[1..], sep);
        assert Join(parts, sep) == [sep] + tail;
        SplitCons(sep, tail, sep);
        assert [""] + parts[1..] == parts;
      }
    } else {
      var shorter := [p[1..]] + parts[1..];
      assert shorter[0] == p[1..] && shorter[1..] == parts[1..];
      SplitJoin(shorter, sep);
      assert p == [p[0]] + p[1..];
      JoinCons(p[0], shorter, sep);
      assert [[p[0]] + shorter[0]] + shorter[1..] == parts;
      SplitCons(p[0], Join(shorter, sep), sep);
    }
  }

  // ---------------------------------------------------------------------
  // The placeholder syntax /{{\s*([\w.$]+)\s*}}/
  // ---------------------------------------------------------------------

  /** A character of the JavaScript `\s` class. */
  predicate IsSpace(c: char)
  {
    c == '\t' || c == '\n' || c == '\U{000B}' || c == '\U{000C}' || c == '\r' || c == ' '
    || c == '\U{00A0}' || c == '\U{1680}' || ('\U{2000}' <= c <= '\U{200A}')
    || c == '\U{2028}' || c == '\U{2029}' || c == '\U{202F}' || c == '\U{205F}'
    || c == '\U{3000}' || c == '\U{FEFF}'
  }

  /** A character of the class `[\w.$]` a placeholder path is made of. */
  predicate IsPathChar(c: char)
  {
    ('a' <= c <= 'z') || ('A' <= c <= 'Z') || ('0' <= c <= '9') || c == '_' || c == '.' || c == '$'
  }

  /** The end of the longest run of spaces starting at `i`. */
  function SpaceRun(s: string, i: nat): (j: nat)
    requires i <= |s|
    ensures i <= j <= |s|
    ensures forall k :: i <= k < j ==> IsSpace(s[k])
    ensures j < |s| ==> !IsSpace(s[j])
    decreases |s| - i
  {
    if i < |s| && IsSpace(s[i]) then SpaceRun(s, i + 1) else i
  }

  /** The end of the longest run of path characters starting at `i`. */
  function PathRun(s: string, i: nat): (j: nat)
    requires i <= |s|
    ensures i <= j <= |s|
    ensures forall k :: i <= k < j ==> IsPathChar(s[k])
    ensures j < |s| ==> !IsPathChar(s[j])
    decreases |s| - i
  {
    if i < |s| && IsPathChar(s[i]) then PathRun(s, i + 1) else i
  }

  /** Where a placeholder sits at the start of a string: its path is
      `s[start..stop]` and the whole placeholder is `s[..end]`. */
  datatype Hole = Hole(start: nat, stop: nat, end: nat)

  /** `s` starts with `{{`, optional spaces, a non-empty path, optional
      spaces and `}}`, laid out as `h` says. */
  predicate IsHoleAt(s: string, h: Hole)
  {
    && 2 <= h.start < h.stop && h.stop + 2 <= h.end <= |s|
    && s[0] == '{' && s[1] == '{'
    && s[h.end - 2] == '}' && s[h.end - 1] == '}'
    && (forall k :: 2 <= k < h.start ==> IsSpace(s[k]))
    && (forall k :: h.start <= k < h.stop ==> IsPathChar(s[k]))
    && (forall k :: h.stop <= k < h.end - 2 ==> IsSpace(s[k]))
  }

  /** The regular expression tried at the start of `s`. Spaces and path
      characters are disjoint, so greedy matching never backtracks and the
      match, when there is one, is found by three maximal spans. */
  function Lead(s: string): Option<Hole>
  {
    if |s| < 2 || s[0] != '{' || s[1] != '{' then None
    else
      var a := SpaceRun(s, 2);
      var b := PathRun(s, a);
      var c := SpaceRun(s, b);
      if a < b && c + 2 <= |s| && s[c] == '}' && s[c + 1] == '}' then Some(Hole(a, b, c + 2))
      else None
  }

  /** What `Lead` finds is a placeholder, laid out as it says. */
  lemma LeadSound(s: string)
    ensures Lead(s).Some? ==> IsHoleAt(s, Lead(s).value)
  {
  }

  lemma {:induction false} SpaceRunExact(s: string, i: nat, j: nat)
    requires i <= j <= |s|
    requires forall k :: i <= k < j ==> IsSpace(s[k])
    requires j < |s| ==> !IsSpace(s[j])
    ensures SpaceRun(s, i) == j
    decreases j - i
  {
    if i < j {
      SpaceRunExact(s, i + 1, j);
    }
  }

  lemma {:induction false} PathRunExact(s: string, i: nat, j: nat)
    requires i <= j <= |s|
    requires forall k :: i <= k < j ==> IsPathChar(s[k])
    requires j < |s| ==> !IsPathChar(s[j])
    ensures PathRun(s, i) == j
    decreases j - i
  {
    if i < j {
      PathRunExact(s, i + 1, j);
    }
  }

  /** Every placeholder at the start of `s` is found, with exactly its
      layout: together with `LeadSound`, `Lead(s) == Some(h)` holds if and
      only if `s` starts with the placeholder `h`. */
  lemma LeadComplete(s: string, h: Hole)
    requires IsHoleAt(s, h)
    ensures Lead(s) == Some(h)
  {
    SpaceRunExact(s, 2, h.start);
    PathRunExact(s, h.start, h.stop);
    SpaceRunExact(s, h.stop, h.end - 2);
  }

  /** `template(input, context)`: the global replace scans left to right;
      at each position either a placeholder starts there, and is replaced by
      the text of its `dot` lookup, or the character is kept. Scanning
      resumes after the placeholder, so inserted text is never rescanned. */
  function Template(s: string, ctx: Value): string
    decreases |s|
  {
    if |s| == 0 then ""
    else match Lead(s)
      case Some(h) => Show(Dot(ctx, Split(s[h.start..h.stop], '.'))) + Template(s[h.end..], ctx)
      case None => [s[0]] + Template(s[1..], ctx)
  }

  /** A string in which no placeholder starts anywhere comes back unchanged. */
  lemma {:induction false} TemplateUnchanged(s: string, ctx: Value)
    requires forall k :: 0 <= k < |s| ==> Lead(s[k..]).None?
    ensures Template(s, ctx) == s
    decreases |s|
  {
    if |s| > 0 {
      assert s[0..] == s;
      forall k | 0 <= k < |s| - 1
        ensures Lead(s[1..][k..]).None?
      {
        assert s[1..][k..] == s[k + 1..];
      }
      TemplateUnchanged(s[1..], ctx);
    }
  }

  /** In particular, a string without `{{` comes back unchanged. */
  lemma TemplateWithoutBraces(s: string, ctx: Value)
    requires forall k :: 0 <= k < |s| - 1 ==> !(s[k] == '{' && s[k + 1] == '{')
    ensures Template(s, ctx) == s
  {
    forall k | 0 <= k < |s|
      ensures Lead(s[k..]).None?
    {
      assert |s[k..]| < 2 || s[k..][0] != '{' || s[k..][1] != '{';
    }
    TemplateUnchanged(s, ctx);
  }

  /** A character that cannot open a placeholder is kept as it is. */
  lemma TemplateKeepsChar(s: string, ctx: Value)
    requires |s| > 0 && s[0] != '{'
    ensures Template(s, ctx) == [s[0]] + Template(s[1..], ctx)
  {
  }

  /** Wherever no placeholder starts, the character there is kept and the
      scan moves on by one. */
  lemma TemplateKeepsNonHole(s: string, ctx: Value)
    requires |s| > 0
    requires forall h :: !IsHoleAt(s, h)
    ensures Template(s, ctx) == [s[0]] + Template(s[1..], ctx)
  {
    LeadSound(s);
  }

  predicate NoOpenBrace(a: string)
  {
    forall k :: 0 <= k < |a| ==> a[k] != '{'
  }

  lemma NoOpenBraceTail(a: string)
    requires |a| > 0 && NoOpenBrace(a)
    ensures NoOpenBrace(a[1..])
  {
    forall k | 0 <= k < |a[1..]| ensures a[1..][k] != '{' {
      assert a[1..][k] == a[k + 1];
    }
  }

  /** One step of copying: the first character of `a + b` is kept. */
  lemma TemplateLiteralStep(a: string, b: string, ctx: Value)
    requires |a| > 0 && a[0] != '{'
    ensures Template(a + b, ctx) == [a[0]] + Template(a[1..] + b, ctx)
  {
    var s := a + b;
    assert s[0] == a[0] && s[1..] == a[1..] + b;
    TemplateKeepsChar(s, ctx);
  }

  /** Text without an opening brace is copied through as it stands. */
  lemma {:induction false} TemplateLiteralPrefix(a: string, b: string, ctx: Value)
    requires NoOpenBrace(a)
    ensures Template(a + b, ctx) == a + Template(b, ctx)
    decreases |a|
  {
    if |a| == 0 {
      assert a + b == b;
    } else {
      NoOpenBraceTail(a);
      TemplateLiteralStep(a, b, ctx);
      TemplateLiteralPrefix(a[1..], b, ctx);
      assert a == [a[0]] + a[1..];
    }
  }

  /** In particular, text without an opening brace comes back unchanged. */
  lemma TemplateLiteral(a: string, ctx: Value)
    requires NoOpenBrace(a)
    ensures Template(a, ctx) == a
  {
    TemplateLiteralPrefix(a, "", ctx);
    assert a + "" == a;
  }

  predicate AllSpace(w: string)
  {
    forall k :: 0 <= k < |w| ==> IsSpace(w[k])
  }

  /** A well-formed path: non-empty and made of `[\w.$]` characters. */
  predicate IsPath(p: string)
  {
    |p| >= 1 && forall k :: 0 <= k < |p| ==> IsPathChar(p[k])
  }

  /** A leading `{{ path }}`, whatever spaces surround the path, becomes the
      text of the lookup of the path's dot-separated segments; the rest is
      processed on its own, so the inserted text is never rescanned. */
  lemma TemplatePlaceholder(w1: string, p: string, w2: string, rest: string, ctx: Value)
    requires AllSpace(w1) && IsPath(p) && AllSpace(w2)
    ensures Template("{{" + w1 + p + w2 + "}}" + rest, ctx)
         == Show(Dot(ctx, Split(p, '.'))) + Template(rest, ctx)
  {
    var s := "{{" + w1 + p + w2 + "}}" + rest;
    var h := Hole(2 + |w1|, 2 + |w1| + |p|, 4 + |w1| + |p| + |w2|);
    assert |s| == h.end + |rest|;
    assert s[h.start..h.stop] == p;
    assert s[h.end..] == rest;
    assert s[0] == '{' && s[1] == '{' && s[h.end - 2] == '}' && s[h.end - 1] == '}';
    assert IsHoleAt(s, h) by {
      forall k | 2 <= k < h.start ensures IsSpace(s[k]) {
        assert s[k] == w1[k - 2];
      }
      forall k | h.start <= k < h.stop ensures IsPathChar(s[k]) {
        assert s[k] == p[k - h.start];
      }
      forall k | h.stop <= k < h.end - 2 ensures IsSpace(s[k]) {
        assert s[k] == w2[k - h.stop];
      }
    }
    LeadComplete(s, h);
  }

  /** Braces around anything that is not a path (here a `-`) are not a
      placeholder and stay in the output literally. */
  lemma TemplateKeepsOtherBraces(ctx: Value)
    ensures Template("{{ a-b }}", ctx) == "{{ a-b }}"
  {
    var s := "{{ a-b }}";
    forall k | 0 <= k < |s|
      ensures Lead(s[k..]).None?
    {
      if k == 0 {
        assert !IsSpace('a') && IsPathChar('a') && !IsPathChar('-') && !IsSpace('-');
        assert SpaceRun(s, 2) == 3 by { SpaceRunExact(s, 2, 3); }
        assert PathRun(s, 3) == 4 by { PathRunExact(s, 3, 4); }
        assert SpaceRun(s, 4) == 4 by { SpaceRunExact(s, 4, 4); }
      } else {
        assert s[k..][0] != '{' || s[k..][1] != '{';
      }
    }
    TemplateUnchanged(s, ctx);
  }

  /** Literal text, one placeholder, then the rest of the template. */
  lemma TemplateOneHole(pre: string, w1: string, p: string, w2: string, post: string, ctx: Value)
    requires NoOpenBrace(pre)
    requires AllSpace(w1) && IsPath(p) && AllSpace(w2)
    ensures Template(pre + ("{{" + w1 + p + w2 + "}}" + post), ctx)
         == pre + (Show(Dot(ctx, Split(p, '.'))) + Template(post, ctx))
  {
    TemplateLiteralPrefix(pre, "{{" + w1 + p + w2 + "}}" + post, ctx);
    TemplatePlaceholder(w1, p, w2, post, ctx);
  }

  /** One `{{ path }}` between two texts without opening braces: the texts
      are kept and the placeholder becomes the text of its lookup. */
  lemma TemplateSingle(t: string, pre: string, p: string, post: string, ctx: Value)
    requires t == pre + "{{ " + p + " }}" + post
    requires NoOpenBrace(pre)
    requires NoOpenBrace(post)
    requires IsPath(p)
    ensures Template(t, ctx) == pre + Show(Dot(ctx, Split(p, '.'))) + post
  {
    assert t == pre + ("{{" + " " + p + " " + "}}" + post);
    TemplateOneHole(pre, " ", p, " ", post, ctx);
    TemplateLiteral(post, ctx);
  }
}

=== FILE: lib_examples.dfy ===
/** The documented behaviour of `dot` and `template`, stated for the
    examples lib_test.ts uses. A template string is a parameter fixed by a
    `requires` rather than a literal in the call, so that the verifier
    reasons through the lemmas about `Template` instead of unrolling it
    character by character. */
module LibExamples {
  import opened Lib

  /** A key reads the property it names. */
  lemma DotValueExample()
    ensures Dot(Obj(map["a" := Num(42)]), ["a"]) == Num(42)
  {
  }

  /** A path walks through nested objects. */
  lemma DotNestedExample()
    ensures Dot(Obj(map["a" := Obj(map["b" := Obj(map["c" := Num(42)])])]), ["a", "b", "c"]) == Num(42)
  {
    var path := ["a", "b", "c"];
    assert path[1..] == ["b", "c"] && path[1..][1..] == ["c"];
  }

  /** A missing key reads undefined. */
  lemma DotMissingExample()
    ensures Dot(Obj(map[]), ["key"]) == Undefined
  {
  }

  /** A missing key below an existing one reads undefined too. */
  lemma DotMissingNestedExample()
    ensures Dot(Obj(map["a" := Obj(map["b" := Num(42)])]), ["a", "c"]) == Undefined
  {
    assert ["a", "c"][1..] == ["c"];
  }

  /** An array renders as its elements' texts joined by commas, is indexed
      by decimal keys, and has a length. */
  lemma ArrayExample(xs: seq<Value>)
    requires xs == [Str("a"), Num(7)]
    ensures Show(Arr(xs)) == "a,7"
    ensures Dot(Arr(xs), ["1"]) == Num(7)
    ensures Dot(Arr(xs), ["length"]) == Num(2)
  {
    ShowArrayCons(Str("a"), [Num(7)]);
    ShowArrayCons(Num(7), []);
    assert xs == [Str("a")] + [Num(7)] && [Num(7)] == [Num(7)] + [];
    assert Show(Num(7)) == "7";
    assert "a" + "," + "7" == "a,7";
    ArrayLookup(xs, 1);
    assert NatToString(1) == "1";
  }

  /** The empty array renders as nothing. */
  lemma EmptyArrayExample()
    ensures Show(Arr([])) == ""
  {
  }

  lemma SplitName()
    ensures Split("name", '.') == ["name"]
  {
    SplitJoin(["name"], '.');
  }

  lemma SplitUserName()
    ensures Split("user.name", '.') == ["user", "name"]
  {
    SplitJoin(["user", "name"], '.');
    assert Join(["user", "name"], '.') == "user.name";
  }

  /** A template without placeholders comes back as it is. */
  lemma TemplatePlainExample(t: string, ctx: Value)
    requires t == "hello world"
    ensures Template(t, ctx) == "hello world"
  {
    TemplateLiteral(t, ctx);
  }

  /** One placeholder whose lookup renders as `v`, between texts without
      opening braces, gives `result`. */
  lemma TemplateFilled(t: string, pre: string, p: string, post: string, ctx: Value, v: string,
                       result: string)
    requires t == pre + "{{ " + p + " }}" + post
    requires NoOpenBrace(pre) && NoOpenBrace(post) && IsPath(p)
    requires Show(Dot(ctx, Split(p, '.'))) == v
    requires result == pre + v + post
    ensures Template(t, ctx) == result
  {
    TemplateSingle(t, pre, p, post, ctx);
  }

  lemma FortyTwo()
    ensures Show(Num(42)) == "42"
  {
    assert NatToString(4) == "4";
  }

  lemma NameLookup(p: string, props: map<string, Value>)
    requires p == "name"
    requires "name" in props && props["name"] == Str("geoff")
    ensures Show(Dot(Obj(props), Split(p, '.'))) == "geoff"
  {
    SplitName();
  }

  lemma AgeLookup(p: string, props: map<string, Value>)
    requires p == "age"
    requires "age" in props && props["age"] == Num(42)
    ensures Show(Dot(Obj(props), Split(p, '.'))) == "42"
  {
    SplitJoin(["age"], '.');
    FortyTwo();
  }

  /** Two keys walk two objects deep. */
  lemma TwoKeys(props: map<string, Value>, k1: string, k2: string, inner: map<string, Value>)
    requires k1 in props && props[k1] == Obj(inner)
    ensures Dot(Obj(props), [k1, k2]) == Prop(inner, k2)
  {
    assert [k1, k2][1..] == [k2];
  }

  /** A missing first key ends the walk. */
  lemma TwoKeysMissing(props: map<string, Value>, k1: string, k2: string)
    requires k1 !in props
    ensures Dot(Obj(props), [k1, k2]) == Undefined
  {
    assert [k1, k2][1..] == [k2];
  }

  lemma UserNameLookup(p: string, props: map<string, Value>)
    requires p == "user.name"
    requires "user" in props && props["user"] == Obj(map["name" := Str("geoff")])
    ensures Show(Dot(Obj(props), Split(p, '.'))) == "geoff"
  {
    SplitUserName();
    TwoKeys(props, "user", "name", map["name" := Str("geoff")]);
  }

  lemma MissingUserLookup(p: string, props: map<string, Value>)
    requires p == "user.name"
    requires "user" !in props
    ensures Show(Dot(Obj(props), Split(p, '.'))) == ""
  {
    SplitUserName();
    TwoKeysMissing(props, "user", "name");
  }

  /** The layout of `hello {{ name }}` and `hello {{ user.name }}`. */
  lemma HelloParts(t: string, p: string)
    requires p == "name" || p == "user.name"
    requires t == "hello {{ " + p + " }}"
    ensures t == "hello " + "{{ " + p + " }}" + ""
    ensures NoOpenBrace("hello ") && NoOpenBrace("") && IsPath(p)
  {
  }

  /** The layout of `, you are {{ age }}`. */
  lemma AgeParts(t: string)
    requires t == ", you are {{ age }}"
    ensures t == ", you are " + "{{ " + "age" + " }}" + ""
    ensures NoOpenBrace(", you are ") && NoOpenBrace("") && IsPath("age")
  {
  }

  /** The expected outputs, as the pieces the template is made of. */
  lemma ExpectedTexts()
    ensures "hello " + "geoff" + "" == "hello geoff"
    ensures "hello " + "" + "" == "hello "
    ensures ", you are " + "42" + "" == ", you are 42"
    ensures "hello " + ("geoff" + ", you are 42") == "hello geoff, you are 42"
  {
  }

  /** A placeholder is replaced by the value it names. */
  lemma TemplateValueExample(t: string, props: map<string, Value>)
    requires t == "hello {{ name }}"
    requires "name" in props && props["name"] == Str("geoff")
    ensures Template(t, Obj(props)) == "hello geoff"
  {
    HelloParts(t, "name");
    NameLookup("name", props);
    ExpectedTexts();
    TemplateFilled(t, "hello ", "name", "", Obj(props), "geoff", "hello geoff");
  }

  lemma ManyTail(rest: string, props: map<string, Value>)
    requires rest == ", you are {{ age }}"
    requires "age" in props && props["age"] == Num(42)
    ensures Template(rest, Obj(props)) == ", you are 42"
  {
    AgeParts(rest);
    AgeLookup("age", props);
    ExpectedTexts();
    TemplateFilled(rest, ", you are ", "age", "", Obj(props), "42", ", you are 42");
  }

  lemma ManyHead(t: string, rest: string, props: map<string, Value>)
    requires t == "hello {{ name }}" + rest
    requires "name" in props && props["name"] == Str("geoff")
    ensures Template(t, Obj(props)) == "hello " + ("geoff" + Template(rest, Obj(props)))
  {
    assert t == "hello " + ("{{" + " " + "name" + " " + "}}" + rest);
    TemplateOneHole("hello ", " ", "name", " ", rest, Obj(props));
    NameLookup("name", props);
  }

  /** Several placeholders are replaced in one left-to-right pass, and a
      number keeps its decimal text. */
  lemma TemplateManyExample(t: string, rest: string, props: map<string, Value>)
    requires rest == ", you are {{ age }}"
    requires t == "hello {{ name }}" + rest
    requires "name" in props && props["name"] == Str("geoff")
    requires "age" in props && props["age"] == Num(42)
    ensures Template(t, Obj(props)) == "hello geoff, you are 42"
  {
    ManyHead(t, rest, props);
    ManyTail(rest, props);
    ExpectedTexts();
  }

  /** A dotted path walks into nested objects. */
  lemma TemplateNestedExample(t: string, props: map<string, Value>)
    requires t == "hello {{ user.name }}"
    requires "user" in props && props["user"] == Obj(map["name" := Str("geoff")])
    ensures Template(t, Obj(props)) == "hello geoff"
  {
    HelloParts(t, "user.name");
    UserNameLookup("user.name", props);
    ExpectedTexts();
    TemplateFilled(t, "hello ", "user.name", "", Obj(props), "geoff", "hello geoff");
  }

  /** A missing value renders as the empty string, at any depth. */
  lemma TemplateMissingExample(t: string, props: map<string, Value>)
    requires t == "hello {{ user.name }}"
    requires "user" !in props
    ensures Template(t, Obj(props)) == "hello "
  {
    HelloParts(t, "user.name");
    MissingUserLookup("user.name", props);
    ExpectedTexts();
    TemplateFilled(t, "hello ", "user.name", "", Obj(props), "", "hello ");
  }
}

=== FILE: scoring.dfy ===
/** Route ordering (main.ts `getPatternScore`, `getRouteScore`,
    `compareRoutes`): every route gets a score, and the route table is the
    routes sorted by ascending score with a stable sort, so a lower score
    is tried first and routes of equal score keep their order. */
module Scoring {
  import opened Config
  import opened StableSort

  /** What one wildcard or parameter marker costs a pattern part. */
  const Weight := 1000

  predicate IsMarker(c: char)
  {
    c == '*' || c == ':'
  }

  /** The number of `*` and `:` characters in a pattern part. */
  function CountMarkers(p: string): nat
  {
    if |p| == 0 then 0
    else (if IsMarker(p[0]) then 1 else 0) + CountMarkers(p[1..])
  }

  /** The count is the number of matches of `/[*:]/g`: every occurrence of
      either character, and nothing else. */
  lemma {:induction false} CountMarkersCounts(p: string)
    ensures CountMarkers(p) == multiset(p)['*'] + multiset(p)[':']
    ensures CountMarkers(p) <= |p|
    ensures CountMarkers(p) == 0 <==> forall i :: 0 <= i < |p| ==> !IsMarker(p[i])
  {
    if |p| > 0 {
      CountMarkersCounts(p[1..]);
      assert p == [p[0]] + p[1..];
      if CountMarkers(p[1..]) != 0 {
        var i :| 0 <= i < |p[1..]| && IsMarker(p[1..][i]);
        assert IsMarker(p[i + 1]);
      }
    }
  }

  /** `getPatternScore`: each marker adds `Weight`, each character takes
      one off. */
  function PartScore(p: string): int
  {
    Weight * CountMarkers(p) - |p|
  }

  /** Among parts shorter than `Weight` characters, fewer markers always
      means an earlier place, whatever the lengths. */
  lemma FewerMarkersFirst(p: string, q: string)
    requires |p| < Weight && |q| < Weight
    ensures CountMarkers(p) < CountMarkers(q) ==> PartScore(p) < PartScore(q)
    ensures PartScore(p) < PartScore(q) ==> CountMarkers(p) <= CountMarkers(q)
  {
  }

  /** With the same number of markers, the longer part comes first. */
  lemma LongerFirst(p: string, q: string)
    requires CountMarkers(p) == CountMarkers(q)
    ensures PartScore(p) < PartScore(q) <==> |p| > |q|
  {
  }

  /** `getRouteScore`: the part scores of hostname, pathname, search and
      protocol, added up. */
  function RouteScore(pat: Pattern): int
  {
    PartScore(pat.hostname) + PartScore(pat.pathname) + PartScore(pat.search)
      + PartScore(pat.protocol)
  }

  /** The port, username, password and hash components take no part in
      the score. */
  lemma UnscoredIgnored(pat: Pattern, username: string, password: string, port: string,
                        hash: string)
    ensures RouteScore(pat.(username := username, password := password, port := port,
                            hash := hash)) == RouteScore(pat)
  {
  }

  /** The key `compareRoutes` orders by: `compareRoutes(a, b)` is
      `Score(a) - Score(b)`. */
  function Score(r: Route): int
  {
    RouteScore(r.pattern)
  }

  /** `toSorted(compareRoutes)`: ascending score, ties in input order. */
  function SortRoutes(s: seq<Route>): (r: seq<Route>)
    ensures Sorted(Score, r)
    ensures multiset(r) == multiset(s)
    ensures forall k :: WithKey(Score, r, k) == WithKey(Score, s, k)
  {
    forall k ensures WithKey(Score, Sort(Score, s), k) == WithKey(Score, s, k) {
      SortStable(Score, s, k);
    }
    Sort(Score, s)
  }

  /** Markers of a concatenation add up. */
  lemma CountMarkersAppend(a: string, b: string)
    ensures CountMarkers(a + b) == CountMarkers(a) + CountMarkers(b)
  {
    CountMarkersCounts(a);
    CountMarkersCounts(b);
    CountMarkersCounts(a + b);
    assert multiset(a + b) == multiset(a) + multiset(b);
  }

  lemma ExactPathScore(p: string)
    requires p == "/exact/path"
    ensures PartScore(p) == -11
  {
    assert forall i :: 0 <= i < |p| ==> !IsMarker(p[i]);
    CountMarkersCounts(p);
  }

  lemma WildPathScore(p: string)
    requires p == "/exact/*"
    ensures PartScore(p) == 992
  {
    var a := p[..7];
    assert forall i :: 0 <= i < |a| ==> !IsMarker(a[i]);
    CountMarkersCounts(a);
    CountMarkersAppend(a, "*");
    assert p == a + "*";
  }

  /** A literal path is tried before a wildcard path under the same other
      components, whichever order they were configured in. */
  lemma ExactBeforeWildcard(exact: Route, wild: Route, pat: Pattern)
    requires exact.pattern == pat.(pathname := "/exact/path")
    requires wild.pattern == pat.(pathname := "/exact/*")
    ensures Score(exact) < Score(wild)
    ensures SortRoutes([wild, exact]) == [exact, wild]
    ensures SortRoutes([exact, wild]) == [exact, wild]
  {
    ExactPathScore(exact.pattern.pathname);
    WildPathScore(wild.pattern.pathname);
    SortPair(Score, exact, wild);
  }

}

=== FILE: stable_sort.dfy ===
/** A stable sort by an integer key: what `Array.prototype.toSorted` does
    with a comparator of the form `(a, b) => key(a) - key(b)`. The
    ECMAScript specification requires `toSorted` to be stable, so the
    result is fixed: ascending keys, and elements with equal keys in their
    original order. */
module StableSort {

  /** Keys never decrease along `s`. */
  predicate Sorted<T>(key: T -> int, s: seq<T>)
  {
    forall i, j :: 0 <= i < j < |s| ==> key(s[i]) <= key(s[j])
  }

  /** The elements of `s` whose key is `k`, in their order in `s`. A sort is
      stable exactly when it keeps every one of these lists. */
  function WithKey<T>(key: T -> int, s: seq<T>, k: int): seq<T>
  {
    if |s| == 0 then []
    else (if key(s[0]) == k then [s[0]] else []) + WithKey(key, s[1..], k)
  }

  /** Puts `x` before the first element whose key is not lower. */
  function Insert<T(==)>(key: T -> int, x: T, s: seq<T>): (r: seq<T>)
    ensures multiset(r) == multiset(s) + multiset{x}
  {
    if |s| == 0 || key(x) <= key(s[0]) then [x] + s
    else
      assert s == [s[0]] + s[1..];
      [s[0]] + Insert(key, x, s[1..])
  }

  /** Inserting into a sorted sequence keeps it sorted. */
  lemma {:induction false} InsertSorted<T>(key: T -> int, x: T, s: seq<T>)
    requires Sorted(key, s)
    ensures Sorted(key, Insert(key, x, s))
    decreases |s|
  {
    if |s| > 0 && key(x) > key(s[0]) {
      var t := Insert(key, x, s[1..]);
      SortedTail(key, s);
      InsertSorted(key, x, s[1..]);
      forall e | e in t ensures key(s[0]) <= key(e) {
        assert e in multiset(t);
        if e != x {
          assert e in s[1..];
          var i :| 0 <= i < |s[1..]| && s[1..][i] == e;
          assert s[i + 1] == e;
        }
      }
      var r := [s[0]] + t;
      forall i, j | 0 <= i < j < |r| ensures key(r[i]) <= key(r[j]) {
        assert r[j] == t[j - 1];
        if i > 0 {
          assert r[i] == t[i - 1];
        }
      }
    }
  }

  /** Insertion sort: sorted, and a permutation of its input. */
  function Sort<T(==)>(key: T -> int, s: seq<T>): (r: seq<T>)
    ensures Sorted(key, r)
    ensures multiset(r) == multiset(s)
  {
    if |s| == 0 then []
    else
      assert s == [s[0]] + s[1..];
      InsertSorted(key, s[0], Sort(key, s[1..]));
      Insert(key, s[0], Sort(key, s[1..]))
  }

  lemma WithKeyCons<T>(key: T -> int, x: T, s: seq<T>, k: int)
    ensures WithKey(key, [x] + s, k) == (if key(x) == k then [x] else []) + WithKey(key, s, k)
  {
    assert ([x] + s)[1..] == s;
  }

  /** Inserting `x` only adds `x`, at the front of its own key's list. */
  lemma {:induction false} InsertWithKey<T>(key: T -> int, x: T, s: seq<T>, k: int)
    ensures WithKey(key, Insert(key, x, s), k)
         == (if key(x) == k then [x] else []) + WithKey(key, s, k)
    decreases |s|
  {
    if |s| == 0 || key(x) <= key(s[0]) {
      WithKeyCons(key, x, s, k);
    } else {
      var t := Insert(key, x, s[1..]);
      assert Insert(key, x, s) == [s[0]] + t;
      assert s == [s[0]] + s[1..];
      InsertWithKey(key, x, s[1..], k);
      WithKeyCons(key, s[0], t, k);
      WithKeyCons(key, s[0], s[1..], k);
      if key(x) == k {
        assert WithKey(key, s, k) == WithKey(key, s[1..], k);
        assert WithKey(key, Insert(key, x, s), k) == WithKey(key, t, k);
      } else if key(s[0]) == k {
        assert WithKey(key, Insert(key, x, s), k) == [s[0]] + WithKey(key, t, k);
        assert WithKey(key, s, k) == [s[0]] + WithKey(key, s[1..], k);
      } else {
        assert WithKey(key, Insert(key, x, s), k) == WithKey(key, t, k);
        assert WithKey(key, s, k) == WithKey(key, s[1..], k);
      }
    }
  }

  /** The sort is stable: elements with equal keys keep their order. */
  lemma {:induction false} SortStable<T>(key: T -> int, s: seq<T>, k: int)
    ensures WithKey(key, Sort(key, s), k) == WithKey(key, s, k)
    decreases |s|
  {
    if |s| > 0 {
      SortStable(key, s[1..], k);
      InsertWithKey(key, s[0], Sort(key, s[1..]), k);
      WithKeyCons(key, s[0], s[1..], k);
      assert s == [s[0]] + s[1..];
    }
  }

  lemma {:induction false} WithKeyMember<T>(key: T -> int, s: seq<T>, k: int, e: T)
    ensures e in WithKey(key, s, k) <==> e in s && key(e) == k
    decreases |s|
  {
    if |s| > 0 {
      WithKeyMember(key, s[1..], k, e);
      WithKeyCons(key, s[0], s[1..], k);
      assert s == [s[0]] + s[1..];
    }
  }

  /** In a sorted sequence no key is lower than the first one. */
  lemma SortedHead<T>(key: T -> int, s: seq<T>, k: int)
    requires Sorted(key, s) && |s| > 0
    requires WithKey(key, s, k) != []
    ensures key(s[0]) <= k
  {
    var e := WithKey(key, s, k)[0];
    WithKeyMember(key, s, k, e);
    var i :| 0 <= i < |s| && s[i] == e;
  }

  lemma SortedTail<T>(key: T -> int, s: seq<T>)
    requires Sorted(key, s) && |s| > 0
    ensures Sorted(key, s[1..])
  {
    forall i, j | 0 <= i < j < |s[1..]| ensures key(s[1..][i]) <= key(s[1..][j]) {
      assert s[1..][i] == s[i + 1] && s[1..][j] == s[j + 1];
    }
  }

  /** Two sorted sequences with the same per-key lists are equal. */
  lemma {:induction false} SortedUnique<T>(key: T -> int, a: seq<T>, b: seq<T>)
    requires Sorted(key, a) && Sorted(key, b)
    requires forall k :: WithKey(key, a, k) == WithKey(key, b, k)
    ensures a == b
    decreases |a|
  {
    if |a| == 0 {
      if |b| > 0 {
        WithKeyMember(key, b, key(b[0]), b[0]);
      }
    } else if |b| == 0 {
      WithKeyMember(key, a, key(a[0]), a[0]);
    } else {
      var ka, kb := key(a[0]), key(b[0]);
      assert a == [a[0]] + a[1..];
      assert b == [b[0]] + b[1..];
      WithKeyCons(key, a[0], a[1..], ka);
      WithKeyCons(key, b[0], b[1..], kb);
      SortedHead(key, b, ka);
      SortedHead(key, a, kb);
      assert ka == kb;
      WithKeyCons(key, b[0], b[1..], ka);
      assert a[0] == WithKey(key, a, ka)[0] == WithKey(key, b, ka)[0] == b[0];
      forall k ensures WithKey(key, a[1..], k) == WithKey(key, b[1..], k) {
        WithKeyCons(key, a[0], a[1..], k);
        WithKeyCons(key, b[0], b[1..], k);
        var h := if ka == k then [a[0]] else [];
        assert WithKey(key, a, k) == WithKey(key, b, k);
        assert WithKey(key, a[1..], k) == WithKey(key, a, k)[|h|..];
        assert WithKey(key, b[1..], k) == WithKey(key, b, k)[|h|..];
      }
      SortedTail(key, a);
      SortedTail(key, b);
      SortedUnique(key, a[1..], b[1..]);
    }
  }

  /** `Sort` is the only stable sort: any sorted arrangement that keeps
      every key's list of `s` in order is `Sort(key, s)`. So the result does
      not depend on which stable algorithm the runtime uses. */
  lemma SortIsStableSort<T>(key: T -> int, s: seq<T>, t: seq<T>)
    requires Sorted(key, t)
    requires forall k :: WithKey(key, t, k) == WithKey(key, s, k)
    ensures t == Sort(key, s)
  {
    forall k ensures WithKey(key, t, k) == WithKey(key, Sort(key, s), k) {
      SortStable(key, s, k);
    }
    SortedUnique(key, t, Sort(key, s));
  }

  /** Sorting what is already in order changes nothing. */
  lemma SortSorted<T>(key: T -> int, s: seq<T>)
    requires Sorted(key, s)
    ensures Sort(key, s) == s
  {
    SortIsStableSort(key, s, s);
  }

  /** Two elements end up in key order, and in their given order on a tie. */
  lemma SortPair<T>(key: T -> int, x: T, y: T)
    ensures key(x) <= key(y) ==> Sort(key, [x, y]) == [x, y]
    ensures key(x) < key(y) ==> Sort(key, [y, x]) == [x, y]
  {
    assert [x, y][1..] == [y] && [y, x][1..] == [x];
    assert [y][1..] == [] && [x][1..] == [];
  }
}

=== FILE: wrappers.dfy ===
/** Failure-carrying wrappers shared by the whole model. */
module Wrappers {

  /** A value that may be absent: `null`/`undefined` in the source, or a
      lookup that found nothing. */
  datatype Option<+T> = None | Some(value: T)

  /** What a synchronous JavaScript call does: it either returns a value or
      throws. The dispatcher is the one place that catches a throw. */
  datatype Outcome<+T> = Returned(value: T) | Threw
}
